=== FILE: README.md ===
# gossh: a model of the web SSH bastion's decisions

gossh is a web SSH bastion. A browser opens a websocket. The gateway dials an SSH server for it and relays an interactive shell. Files go up and down over extra command channels. The server also accepts a direct-access link: an encrypted token that carries the login.

This project models the pure decisions under that plumbing, as Dafny functions over strings and byte sequences, and proves what they guarantee:

- **Connection parameters.** `Connection` covers the port check and the default port 22 (section 4.1 of RFC 4253). It also covers the ordered list of authentication methods and how far an interactive session gets before its shell starts.
- **Downloads.** `Download` models the prefix allow-list. It exists in two copies, one per source file, and the proof shows they accept the same paths. It also models the HTTP download handler and the streaming download command.
- **Uploads.** `Upload` covers the staging path, the `cat > '…'` command and the upload acknowledgement. It models both the websocket upload and the HTTP form upload.
- **The running session.** `Bridge` models the control loop that dispatches websocket messages and the two output-relay loops. Each loop is a fold over the sequence of results its reads return.
- **The websocket bootstrap.** `Bootstrap` covers query parameters versus the first `host|user|password|key` message.
- **Access tokens.** `Access` models the payload `generate_url.py` builds and the way `decryptAccess` reads it back.
- **Library behaviour.** The model is built on exact models of the library behaviour it depends on:
  - `Base64`: the standard alphabet of section 4 of RFC 4648. The encoder is Python's `b64encode`; the decoder is Go's `StdEncoding.DecodeString`.
  - `Query`: Go's `url.ParseQuery`, `QueryUnescape` and `Values.Get`, plus the escaping done by `quote_plus`.
  - `Text`: `strings.Split` and `strings.Join` with a one-character separator.
  - `Shell`: how a POSIX shell reads one single-quoted word, and a quoting that it reads back exactly.

Every call into the SSH library is a `Remote.Step`. A `Remote.World` names the step that fails, if any, with the text of its error. It also holds what the remote command writes. An operation stops at its first failing step, and each modelled operation returns the steps it attempted. So "rejected before anything is dialed" is stated as "the attempted steps are empty".

Byte data is `Text.bytes`, a sequence of characters below 256, one per byte. That covers Go `[]byte` values, Python byte strings, base64 text and the decrypted payload. Go `string` values that arrive from outside are Dafny strings of any characters: query parameters, JSON fields, file names and paths. The model measures a string in characters, while Go's `len` counts its UTF-8 bytes, and the two differ once a character is at or above 128. A conversion between `string` and `[]byte` is modelled as the identity, which it is for text below 128.

## Model

| member | source | states |
|---|---|---|
| Connection.ContainsPort | ssh.go:201-212 | The scan from the end reports a port exactly when some ':' has no ']' after it. So a colon inside a bracketed IPv6 literal does not count, but an unbracketed IPv6 address does. |
| Connection.ContainsPortExamples | ssh.go:201-212 | "h" and "[::1]" carry no port; "h:2222", "[::1]:22" and the unbracketed "::1" do. |
| Connection.NormalizeHost | ssh.go:56-59 | The dial address always carries a port and extends the host. It equals the host exactly when the host already carries a port; otherwise it is the host followed by ":22". |
| Connection.NormalizeHostIdempotent | ssh.go:56-59 | Normalising a dial address a second time changes nothing. |
| Connection.AuthMethods | ssh.go:41-54 | The result is absent exactly when key bytes are given and fail to parse. Otherwise it holds at most two methods: a password method iff the password is non-empty and a key method iff key bytes are given. It holds nothing else, and the password comes first. |
| Connection.ConnectSteps | ssh.go:46-62 | The key is parsed exactly when key bytes are given, and connecting ends with the dial. |
| Connection.KeyRejectedBeforeDial | ssh.go:46-52 | When the key does not parse, that is the only step attempted, whatever would have followed, and no dial request is made. |
| Connection.DialRequestFor | ssh.go:34-62 | A dial request is made exactly when the dial step is reached. It goes to the normalised address with the given user and with the authentication methods above. |
| Connection.ErrorFrame | ssh.go:48-115 | A frame is sent exactly when the key parse, the dial, the session, the pty request or the shell fails. It starts "Error: " and ends with the error text and "\r\n". A failed pipe sends none. Each step names itself: "Failed to parse private key", "Failed to connect", "Failed to create session", "Failed to request PTY" and "Failed to start shell". |
| Connection.StartSession | ssh.go:33-117 | The steps tried run from key parsing to the shell. The shell starts iff none of them fails; a failed start sends the error frame for the failing step. The dial request is the one `DialRequestFor` makes: the normalised address, the user, and the password-then-key authentication list. The pseudo-terminal is requested exactly when that step is reached, always as an 80x40 "xterm-256color" terminal with echo on and 14400 baud both ways. A started shell always has it. |
| Remote.Attempted | ssh.go:61-117 | The attempted steps are a prefix of the planned ones: all of them when nothing fails, otherwise up to the failing step, which occurs only at the end. |
| Download.SliceAllowed | ssh.go:378-389 | The length-guarded slice check accepts a path iff one prefix of the list equals the path's leading slice of that length. |
| Download.HasPrefixAllowed | main.go:224-236 | The strings.HasPrefix check accepts a path iff one prefix of the list is a prefix of the path. |
| Download.AllowListsAgree | main.go:225-232 | For every path and every list of prefixes, the two allow-list checks give the same answer. |
| Download.AllowedExactly | main.go:225-236 | A path is allowed iff it starts with "/home/", "/opt/" or "/tmp/". "/etc/passwd" and "/tmp" are refused; "/tmp/a.txt" and "/tmp/../etc/passwd" are accepted. |
| Download.ReadCommand | ssh.go:450 | The command is `cat '`, the path unchanged, and a closing quote: six characters more than the path. |
| Download.DownloadViaSsh | ssh.go:377-467 | A refused path gives the access-denied error with no step attempted and no dial. Otherwise it tries the connect and download steps and succeeds iff none fails. The command started is `cat '<path>'`. For an allowed path, the dial request is the one `DialRequestFor` makes: the normalised address, the user, and the authentication list. Bytes are streamed only once the copy has begun. A failing step gives the download error for that step, and on success the response holds the remote output. |
| Download.DownloadError | ssh.go:406-463 | Every download error ends with the library's error, after ": ". When the remote command fails, the remote error output follows it after " - ". |
| Download.DownloadKey | main.go:238-246 | An absent key is no error and gives no key. A key that decodes has a whole number of four-letter groups. |
| Download.DownloadKeyOfEncoded | main.go:238-246 | A key sent as the base64 of some bytes arrives as exactly those bytes, the empty key included. |
| Download.DownloadHandler | main.go:211-254 | A missing host, user or path gives 400 "Missing required parameters". Otherwise it gives 403 exactly when the path is not allowed, and that reply is the access-denied message with no step attempted. No step is attempted unless the path is allowed and the key decodes, and a 500 only follows an attempted, failing step. An allowed path with an undecodable key gives 400 "Invalid private key encoding". With a decodable key, the steps attempted are the connect and download steps up to the first failure. When none fails, the reply is 200 with exactly the remote output. When one fails, the reply is `HttpError` of the bytes already streamed and "Download failed: " with the step's error, with status 500. That means status 200 once bytes have gone out, and the message is appended after them. |
| Download.HttpError | main.go:252 | The reply body is whatever was already streamed, then the message and a line break. Its status is the given one, unless bytes were already streamed and 200 went out with them. |
| Upload.StagingPath | ssh.go:228 | The staging path is "/tmp/" followed by the file name exactly as given. |
| Upload.StagingPathKeepsTraversal | ssh.go:228 | A "../" file name stays in the path: "../etc/cron.d/job" is staged at "/tmp/../etc/cron.d/job". |
| Upload.WriteCommand | ssh.go:259 | The command is `cat > '`, the path unchanged, and a closing quote: eight characters more than the path. |
| Upload.QuoteInFilenameEndsQuoting | ssh.go:258-259 | A single quote in the file name puts a quote strictly inside the quoted word, so the path is not one quoted word. |
| Upload.QuoteInFilenameBreaksWord | ssh.go:258-259 | For a file name like "x'y", the shell cannot read the command's argument as one word: its last quote is never closed. |
| Shell.WordOfQuoted | ssh.go:258-259 | Pieces free of quotes, each single-quoted and joined by escaped quotes, are read by the shell as the pieces joined by quotes. |
| Shell.Quote | ssh.go:258-259 | Every text, quotes included, is read back by the shell as exactly itself once quoted. |
| Upload.QuotedWriteCommand | ssh.go:258-259 | The corrected command is `cat > ` followed by one word that the shell reads as exactly the path. |
| Upload.HandleFileUpload | ssh.go:214-288 | Every response has type "upload_response". Success gives the staging path and no error; failure gives an empty path and a non-empty error. An undecodable payload fails before any step is attempted. Success holds iff the payload decodes and no step fails. The command is `cat > '<staging path>'`, and exactly the decoded bytes are written. |
| Upload.WriteUpload | ssh.go:227-288 | Once the payload has decoded, the upload succeeds iff no session step fails. The command writes to the given path, and exactly the payload is written. |
| Upload.UploadErrorText | ssh.go:234-280 | Every error of a websocket upload ends with the library's error, after ": ". When the remote command fails, the remote error output follows it after " - ". |
| Upload.FormUploadErrorText | ssh.go:318-371 | The same holds for every error of a form upload, including a failed key parse or dial. |
| Upload.UploadViaSsh | ssh.go:302-375 | The form upload tries the connect and upload steps and succeeds iff none fails. It returns the staging path on success and a non-empty error otherwise. The dial request is the one `DialRequestFor` makes, with the authentication list, and the command writes to the staging path. |
| Bridge.Dispatch | ssh.go:172-185 | "input" writes exactly the message data. "resize" asks for a window change of exactly (rows, cols). "upload" spawns an upload of the message's file. Any other type does nothing. |
| Bridge.ResizeUnaltered | ssh.go:178-182 | Resize values reach the window-change request unaltered, with no clamping. |
| Bridge.ControlLoop | ssh.go:158-187 | Closing the shell's input can only be the last action of the control loop. |
| Bridge.DeliveredLoopDispatches | ssh.go:157-187 | While the websocket delivers and every "input" message finds the shell's input open, the loop does exactly the dispatched action of each decoded message, in order, and nothing else. |
| Bridge.ResizesCounted | ssh.go:178-182 | While the websocket delivers and every "input" message finds the shell's input open, the number of window changes to (rows, cols) equals the number of decoded "resize" messages asking for (rows, cols). |
| Bridge.ControlLoopPrefix | ssh.go:158-187 | The control loop is online: reading more events only appends actions. |
| Bridge.ReadErrorCloses | ssh.go:158-163 | When the loop reaches a websocket read error after messages it reads past (each "input" one finding the shell's input open), it closes the shell's input and stops. Its actions are those before the error followed by one close, whatever comes after. |
| Bridge.FailedWriteStops | ssh.go:172-177 | When writing an "input" message fails after messages the loop reads past, that write is the loop's last action, and the shell's input is not closed. |
| Bridge.CloseOnlyOnReadError | ssh.go:158-163 | The shell's input is closed only when a websocket read error has occurred. |
| Bridge.StdinGetsInputVerbatim | ssh.go:167-177 | While reads and input writes succeed, the shell's input receives exactly the concatenated data of the "input" messages, in order. Undecodable messages and messages of other types contribute nothing. |
| Bridge.Relay | ssh.go:122-153 | Every frame sent is non-empty and at most 1024 bytes. The frames concatenate to the bytes read before the first error. The loop stops iff a read fails, and only the stdout loop then signals the end of the session. |
| Bridge.RelayOneFramePerRead | ssh.go:128-134 | Before any error, each further read adds exactly its own bytes as one frame, or nothing when it read no bytes. |
| Bridge.RelayPrefix | ssh.go:122-137 | The relay is online: the frames sent for a prefix of the reads are a prefix of the frames sent for all of them. |
| Bootstrap.ApplyBootstrap | main.go:337-346 | A record without '\|' changes nothing. Otherwise the host and the user hold no '\|', and the record is exactly `host\|user` or starts with `host\|user\|`. So they are the record's first two fields. |
| Bootstrap.FourthFieldKey | main.go:337-346 | A four-field record with a non-empty key field gives exactly its host, user and password, and whatever the key field decodes to. Everything gathered before is replaced. The decoding error is ignored. |
| Bootstrap.CorruptKeyFieldDropsKey | main.go:344-345 | A corrupt fourth field such as "!!!!" leaves no key at all, even when one was gathered before. |
| Bootstrap.TwoFieldRecord | main.go:338-341 | A `host\|user` record sets the host and the user and keeps the password and key gathered before. |
| Bootstrap.ThreeFieldRecord | main.go:338-343 | A `host\|user\|password` record also sets the password and keeps the key gathered before. |
| Bootstrap.EmptyKeyFieldRecord | main.go:338-346 | An empty fourth field keeps the key gathered before. |
| Bootstrap.BootstrapRecordRoundTrip | main.go:337-347 | A record written as host, user, password and the base64 of a non-empty key gives back exactly those four values. Fields must hold no '\|'; whatever was gathered before is overwritten. |
| Bootstrap.ExtraFieldsIgnored | main.go:337-347 | Fields after the fourth do not change the result. |
| Bootstrap.QueryKey | main.go:318-326 | An absent query key is no error and gives no key. A key that decodes has a whole number of four-letter groups. |
| Bootstrap.QueryKeyOfEncoded | main.go:318-326 | A key sent as the base64 of some bytes arrives as exactly those bytes, the empty key included. |
| Bootstrap.WsHandler | main.go:304-357 | An undecodable query key gives "Error: Invalid private key encoding". The connection is abandoned exactly when the first message is needed and cannot be read. A connection is made only with a non-empty host and user, and with the query's parameters when the query names a host. With a decodable key, a query naming a host and a user connects with exactly the query's parameters. A host without a user gives "Error: Missing host or user". Without a host in the query, the first message is applied to the query's parameters, query password and key included. The result connects when it has a host and a user, and otherwise gives "Error: Missing host or user". |
| Bootstrap.QueryTakesPrecedence | main.go:328-334 | When the query names a host, the first message does not affect the outcome. |
| Bootstrap.BootstrapConnects | main.go:328-356 | Without a host in the query, a well-formed record with a host, a user and a key connects with exactly its fields. |
| Bootstrap.ShortRecordRefused | main.go:337-353 | A record without '\|' leads to "Error: Missing host or user". |
| Access.Payload | generate_url.py:19-28 | The payload is the fields joined by '&', the key written as the base64 of the key file's bytes. |
| Access.GenerateAccessToken | generate_url.py:14-34 | The token is the encryption of a text that base64-decodes to exactly the payload. |
| Access.FormIsJoin | generate_url.py:19-28 | The payload is the fields `username=…`, `hostname=…` and optionally `privatekey=…`, in that order, joined by '&'. |
| Access.AccessUrl | generate_url.py:65 | The access URL is the base URL followed by "/?access=" and the token. |
| Access.AccessUrlCarriesToken | generate_url.py:65 | The query of an access URL parses to exactly one pair, `access` with the token, for every Fernet token. |
| Access.DecryptAccess | main.go:261-297 | The five stages run in order: a key is configured, it decodes, the token verifies, its content is base64, and the payload parses. Each stage's error is reported iff every earlier stage passed and that stage fails. Success holds iff all five pass. The host, user and key are then the values `Get` returns for "hostname", "username" and "privatekey" on the parsed pairs, and the password is never set. |
| Access.CredentialsOf | main.go:292-294 | The host, user and key are each the value of the first pair with that name, or "" when there is none. The password is "". |
| Query.Get | main.go:292-294 | A key that is absent gives ""; otherwise the value of its first occurrence is returned. |
| Access.FormReadsBack | main.go:286-294 | A payload whose values hold no '&' or ';' and unescape parses without error. The credentials read from it are the values unescaped. |
| Access.FormRoundTrip | main.go:276-294 | The token round trip: if decryption undoes encryption, decryptAccess on the token of such a payload returns exactly the unescaped values. |
| Access.AccessRoundTrip | generate_url.py:19-32 | With a user and a host free of '&', '%', '+' and ';', the user and host come back exactly. The key comes back as its base64 with every '+' turned into a space. |
| Access.KeySurvivesIffNoPlus | generate_url.py:25-26 | The key text comes back unchanged iff its base64 holds no '+'. |
| Access.PlusKeyCounterexample | generate_url.py:25-28 | A key file holding the byte 0xF8 comes back as " A==" instead of "+A==", and " A==" does not decode as base64. |
| Access.EscapedAccessRoundTrip | generate_url.py:19-32 | With query-escaped values, every user, host and key comes back exactly. |
| Base64.Encode | generate_url.py:25 | The encoding has four characters for every started group of three bytes. |
| Base64.DecodeString | main.go:281 | Decoding succeeds only when the text, without line breaks, is whole four-character quanta. It yields at most three bytes for every four characters. |
| Base64.EncodeAlphabet | generate_url.py:25 | Every character of an encoding is a letter of the standard alphabet or '='. |
| Base64.DecodeEncode | main.go:281 | Decoding an encoding succeeds and gives back exactly the original bytes. |
| Query.ParseQuery | main.go:287 | A query holding ';' is an error, and no query gives more pairs than it has characters. |
| Query.Unescape | main.go:287 | Unescaping never lengthens the text, and it can fail only on text holding '%'. |
| Query.ParseJoined | main.go:287 | Fields written as `name=value` and joined by '&' parse without error to the same fields, in order, with their values unescaped. |
| Query.UnescapeWithoutPercent | main.go:287 | Text without '%' always unescapes, and only its '+' characters change, to spaces. |
| Query.UnescapeEscape | main.go:287 | Unescaping undoes `quote_plus` escaping for every byte string. |
| Text.Split | main.go:337 | Splitting gives at least one piece, no piece holds the separator, and joining the pieces gives back the string. |
| Text.SplitJoin | main.go:337 | Splitting undoes joining when no piece holds the separator. |

## Left out

- Fernet encryption and verification (AES-CBC with HMAC) are cryptography, not decisions. `encrypt` and `decrypt` are parameters; the round-trip lemmas assume only that decrypting an encrypted payload gives it back. Whether the configured key decodes is a boolean parameter.
- The SSH transport is not modelled: the handshake, the host key callback (always `InsecureIgnoreHostKey`), key parsing and the channel requests. What matters is whether each call succeeds, and `Remote.World` says so. The pty request is recorded as the values passed (`Connection.InitialPty`), not as its wire encoding.
- The goroutines, the `done` channel and teardown ordering are not modelled. Neither are the unsynchronised concurrent `WriteMessage` calls from the relay loops and upload goroutines. Each loop is modelled as a sequential fold over its own reads.
- The model makes no claim that the window-change request reaches the SSH library as an unsigned 32-bit value.
- HTTP plumbing is not modelled: routing, templates, `indexHandler` rendering, YAML config loading, the static file handler and the response headers. That includes the header writes after streaming in main.go:257-258, which have no effect.
- `uploadHandler` (main.go:152-204): multipart form parsing and the JSON reply are plumbing. The upload itself is `Upload.UploadViaSsh`.
- `filepath.Base` for the download's Content-Disposition name (ssh.go:443) is a library call and is not modelled.
- The command-line part of generate_url.py is not modelled: argument parsing, reading the key file, key generation and printing.
- Log lines are not modelled. Neither is the byte offset in Go's base64 error text: `Upload.CorruptInput` gives the text without the offset.
- Download.DownloadViaSsh: when `io.Copy` fails part-way, `World.stdout` stands for the bytes copied before the error. The model does not split a remote output into a copied part and a lost part.
- Resize geometry is passed on as the code passes it: rows and cols reach the window-change request unaltered. Non-positive sizes are neither rejected nor clamped, as `Bridge.ResizeUnaltered` states.
- A failed stdin, stdout or stderr pipe is only logged and sends no frame to the client, as `Connection.ErrorFrame` states.
- Upload.WriteCommand: the command's length is counted in characters, not UTF-8 bytes. For a path holding characters at or above 128, Go's `len` is larger.
- Download.ReadCommand: the same holds for the download command's length.
- Shell.Word models only single quotes, backslashes and blanks. Other shell metacharacters, such as `;`, `|`, `$` and double quotes, are outside its grammar. So a file name such as `';cmd;'`, which closes the quote and runs `cmd`, reads as one word there. The model shows only that a quote in the name breaks the argument, not what the shell then runs.

## Findings

| source | as written | input that shows it | evidently intended | confidence | as-written member | corrected member |
|---|---|---|---|---|---|---|
| generate_url.py:19-28 | the key's base64 is written into the `key=value&…` payload unescaped, so `url.ParseQuery` in decryptAccess (main.go:287) turns every '+' into a space | a key file holding the single byte 0xF8: its base64 is "+A==", decryptAccess yields " A==", and that no longer decodes as base64 | the payload's values are query-escaped (as `urllib.parse.urlencode` does), so every user, host and key comes back exactly | high (proved; not executed) | Access.PlusKeyCounterexample | Access.EscapedAccessRoundTrip |
| ssh.go:258-259 | the comment promises the file name is properly quoted, but `cat > '%s'` puts it between single quotes without escaping a quote inside it | the file name "x'y": the command's argument is "'/tmp/x'y'", whose last quote is never closed | every quote in the path written as `'\''`, so the shell reads exactly the path as one word | high (proved; not executed) | Upload.QuoteInFilenameBreaksWord | Upload.QuotedWriteCommand |

=== FILE: access.dfy ===
/** Direct-access tokens: generate_url.py writes the credentials as a
    `key=value&...` payload, base64-encodes it and encrypts it with Fernet;
    decryptAccess (main.go) decrypts, base64-decodes and parses it back.

    Fernet itself is a pair of parameters: `encrypt` stands for Fernet.encrypt
    under the shared key and `decrypt` for fernet.VerifyAndDecrypt under the
    same key (None when the token does not verify).  The only thing assumed of
    them, where it is needed, is that decrypting an encrypted payload gives it
    back. */
module Access {
  import opened Text
  import Base64
  import Query

  // ---------------------------------------------------------------- generate_url.py

  /** The fields of a credential payload, in the order generate_url.py
      writes them: username, hostname and, when there is one, the private
      key, each value already in the text form it is written in. */
  function Fields(user: bytes, host: bytes, key: Option<bytes>): (fields: seq<Query.Pair>)
    ensures |fields| == (if key.Some? then 3 else 2)
  {
    [Query.Pair("username", user), Query.Pair("hostname", host)]
      + (if key.Some? then [Query.Pair("privatekey", key.value)] else [])
  }

  /** The fields written as `name=value` and joined by '&'. */
  function Form(user: bytes, host: bytes, key: Option<bytes>): bytes {
    var u, h := "username" + "=" + user, "hostname" + "=" + host;
    u + "&" + h + (if key.Some? then "&" + ("privatekey" + "=" + key.value) else "")
  }

  /** The form is its fields joined by '&', as "&".join(parts) builds it. */
  lemma FormIsJoin(user: bytes, host: bytes, key: Option<bytes>)
    ensures Form(user, host, key) == Join(Query.FieldTexts(Fields(user, host, key)), '&')
  {
    var u, h := "username" + "=" + user, "hostname" + "=" + host;
    var texts := Query.FieldTexts(Fields(user, host, key));
    assert texts[0] == u && texts[1] == h;
    if key.Some? {
      var k := "privatekey" + "=" + key.value;
      assert texts[2] == k;
      JoinThree(texts, '&');
      assert u + "&" + h + ("&" + k) == u + "&" + h + "&" + k;
    } else {
      JoinTwo(texts, '&');
    }
  }

  lemma JoinTwo(texts: seq<string>, sep: char)
    requires |texts| == 2
    ensures Join(texts, sep) == texts[0] + [sep] + texts[1]
  {
    assert texts[1..] == [texts[1]];
  }

  lemma JoinThree(texts: seq<string>, sep: char)
    requires |texts| == 3
    ensures Join(texts, sep) == texts[0] + [sep] + texts[1] + [sep] + texts[2]
  {
    JoinTwo(texts[1..], sep);
  }

  /** The payload generate_access_token builds: the values written as they
      are, the key as the base64 of the key file's bytes.  `user` and `host`
      are the UTF-8 bytes of the strings given on the command line. */
  function Payload(user: bytes, host: bytes, key: Option<bytes>): (p: bytes)
    ensures p == Join(Query.FieldTexts(Fields(user, host, if key.Some? then Some(Base64.Encode(key.value)) else None)), '&')
  {
    var encoded := if key.Some? then Some(Base64.Encode(key.value)) else None;
    FormIsJoin(user, host, encoded);
    Form(user, host, encoded)
  }

  /** generate_access_token: encrypt the base64 of the payload.  The token is
      the encryption of a text that base64-decodes to the payload. */
  function GenerateAccessToken(user: bytes, host: bytes, key: Option<bytes>, encrypt: bytes -> string): (token: string)
    ensures exists text: bytes :: token == encrypt(text) && Base64.DecodeString(text) == Base64.Decoded(Payload(user, host, key), true)
  {
    var text := Base64.Encode(Payload(user, host, key));
    Base64.DecodeEncode(Payload(user, host, key));
    encrypt(text)
  }

  /** The access URL printed for a token. */
  function AccessUrl(baseUrl: string, token: string): (url: string)
    ensures baseUrl <= url && url[|baseUrl|..] == "/?access=" + token
  {
    baseUrl + "/?access=" + token
  }

  /** The characters of a Fernet token: the URL-safe base64 alphabet
      (section 5 of RFC 4648) and its padding. */
  predicate IsTokenChar(c: char) {
    ('A' <= c <= 'Z') || ('a' <= c <= 'z') || ('0' <= c <= '9') || c == '-' || c == '_' || c == '='
  }

  /** The query of an access URL parses back to exactly the token, since a
      Fernet token holds no character that query parsing treats specially. */
  lemma AccessUrlCarriesToken(baseUrl: string, token: string)
    requires forall i :: 0 <= i < |token| ==> IsTokenChar(token[i])
    ensures Query.ParseQuery(AccessUrl(baseUrl, token)[|baseUrl| + 2..]) == Query.Parsed([Query.Pair("access", token)], true)
    ensures Query.Get(Query.ParseQuery(AccessUrl(baseUrl, token)[|baseUrl| + 2..]).pairs, "access") == token
  {
    var url := AccessUrl(baseUrl, token);
    assert url[|baseUrl| + 2..] == "access" + "=" + token;
    assert '%' !in token && '+' !in token && '&' !in token && ';' !in token by {
      forall i | 0 <= i < |token|
        ensures token[i] != '%' && token[i] != '+' && token[i] != '&' && token[i] != ';'
      {
        assert IsTokenChar(token[i]);
      }
    }
    Query.PlainUnescapesToItself(token);
    Query.ParseLastField("access", token);
  }

  // ---------------------------------------------------------------- decryptAccess

  /** SSHCredentials as filled by decryptAccess. */
  datatype Credentials = Credentials(host: string, user: string, password: string, privateKey: string)

  datatype AccessError =
    | NoFernetKey        // the configured key is ""
    | InvalidFernetKey   // fernet.DecodeKeys failed
    | DecryptFailed      // the token did not verify
    | CorruptPayload     // the decrypted text is not base64
    | MalformedPayload   // url.ParseQuery reported an error

  datatype Result = Ok(creds: Credentials) | Err(error: AccessError)

  /** decryptAccess: every stage must succeed, in order; the credentials are
      the first value of each of the three keys ("" when absent), and the
      password is never set.  `keyDecodes` says whether the configured key
      decodes as a Fernet key. */
  function DecryptAccess(fernetKey: string, keyDecodes: bool, decrypt: string -> Option<bytes>, token: string): (r: Result)
    ensures r == Err(NoFernetKey) <==> fernetKey == ""
    ensures r == Err(InvalidFernetKey) <==> fernetKey != "" && !keyDecodes
    ensures r == Err(DecryptFailed) <==> fernetKey != "" && keyDecodes && decrypt(token).None?
    ensures r == Err(CorruptPayload) <==>
      fernetKey != "" && keyDecodes && decrypt(token).Some? && !Base64.DecodeString(decrypt(token).value).ok
    ensures r == Err(MalformedPayload) <==>
      && fernetKey != "" && keyDecodes && decrypt(token).Some? && Base64.DecodeString(decrypt(token).value).ok
      && !Query.ParseQuery(Base64.DecodeString(decrypt(token).value).data).ok
    ensures r.Ok? <==>
      && fernetKey != "" && keyDecodes && decrypt(token).Some? && Base64.DecodeString(decrypt(token).value).ok
      && Query.ParseQuery(Base64.DecodeString(decrypt(token).value).data).ok
    ensures r.Ok? ==>
      var pairs := Query.ParseQuery(Base64.DecodeString(decrypt(token).value).data).pairs;
      && r.creds.host == Query.Get(pairs, "hostname")
      && r.creds.user == Query.Get(pairs, "username")
      && r.creds.privateKey == Query.Get(pairs, "privatekey")
    ensures r.Ok? ==> r.creds.password == ""
  {
    if fernetKey == "" then Err(NoFernetKey)
    else if !keyDecodes then Err(InvalidFernetKey)
    else
      match decrypt(token)
      case None => Err(DecryptFailed)
      case Some(encoded) =>
        var payload := Base64.DecodeString(encoded);
        if !payload.ok then Err(CorruptPayload)
        else
          var values := Query.ParseQuery(payload.data);
          if !values.ok then Err(MalformedPayload)
          else Ok(CredentialsOf(values.pairs))
  }

  /** The credentials read from the parsed payload: the first value of each
      of the three keys, "" when absent; the password is never set. */
  function CredentialsOf(pairs: seq<Query.Pair>): (c: Credentials)
    ensures Query.IsFirstValue(pairs, "hostname", c.host)
    ensures Query.IsFirstValue(pairs, "username", c.user)
    ensures Query.IsFirstValue(pairs, "privatekey", c.privateKey)
    ensures c.password == ""
  {
    Credentials(Query.Get(pairs, "hostname"), Query.Get(pairs, "username"), "", Query.Get(pairs, "privatekey"))
  }

  /** A field value that can be written into the form and read back. */
  predicate Readable(v: string) {
    '&' !in v && ';' !in v && Query.Unescape(v).Some?
  }

  /** Reading the credentials from the fields of a form, in order. */
  lemma ReadTwoFields(u: string, h: string)
    ensures CredentialsOf([Query.Pair("username", u), Query.Pair("hostname", h)]) == Credentials(h, u, "", "")
  {
    var pairs := [Query.Pair("username", u), Query.Pair("hostname", h)];
    assert "username"[0] != "hostname"[0] && "username"[0] != "privatekey"[0] && "hostname"[0] != "privatekey"[0];
    assert Query.Get(pairs, "username") == u;
    assert pairs[1..] == [Query.Pair("hostname", h)] && pairs[1..][1..] == [];
    assert Query.Get(pairs[1..], "hostname") == h;
    assert Query.Get(pairs[1..], "privatekey") == "";
  }

  lemma ReadThreeFields(u: string, h: string, k: string)
    ensures CredentialsOf([Query.Pair("username", u), Query.Pair("hostname", h), Query.Pair("privatekey", k)])
         == Credentials(h, u, "", k)
  {
    var pairs := [Query.Pair("username", u), Query.Pair("hostname", h), Query.Pair("privatekey", k)];
    assert "username"[0] != "hostname"[0] && "username"[0] != "privatekey"[0] && "hostname"[0] != "privatekey"[0];
    assert Query.Get(pairs, "username") == u;
    assert pairs[1..] == [Query.Pair("hostname", h), Query.Pair("privatekey", k)];
    assert Query.Get(pairs[1..], "hostname") == h;
    assert pairs[1..][1..] == [Query.Pair("privatekey", k)];
    assert Query.Get(pairs[1..][1..], "privatekey") == k;
    assert Query.Get(pairs[1..], "privatekey") == k;
  }

  /** The values of a form's fields unescaped, in order. */
  function ReadValues(user: bytes, host: bytes, key: Option<bytes>): seq<Query.Pair>
    requires Readable(user) && Readable(host) && (key.Some? ==> Readable(key.value))
  {
    [Query.Pair("username", Query.Unescape(user).value), Query.Pair("hostname", Query.Unescape(host).value)]
      + (if key.Some? then [Query.Pair("privatekey", Query.Unescape(key.value).value)] else [])
  }

  /** A form of readable values parses without error to its fields, in
      order, each value unescaped. */
  lemma FormParses(user: bytes, host: bytes, key: Option<bytes>)
    requires Readable(user) && Readable(host) && (key.Some? ==> Readable(key.value))
    ensures Query.ParseQuery(Form(user, host, key)) == Query.Parsed(ReadValues(user, host, key), true)
  {
    var fields := Fields(user, host, key);
    FormIsJoin(user, host, key);
    FieldsWritable(user, host, key);
    Query.ParseJoined(fields);
    var u, h := Query.Unescape(user).value, Query.Unescape(host).value;
    if key.Some? {
      var k := Query.Unescape(key.value).value;
      assert Query.Unescaped(fields) == [Query.Pair("username", u), Query.Pair("hostname", h), Query.Pair("privatekey", k)];
    } else {
      assert Query.Unescaped(fields) == [Query.Pair("username", u), Query.Pair("hostname", h)];
    }
  }

  lemma FieldsWritable(user: bytes, host: bytes, key: Option<bytes>)
    requires Readable(user) && Readable(host) && (key.Some? ==> Readable(key.value))
    ensures forall i :: 0 <= i < |Fields(user, host, key)| ==> Query.Writable(Fields(user, host, key)[i])
  {
    var fields := Fields(user, host, key);
    FieldNamesPlain();
    forall i | 0 <= i < |fields|
      ensures Query.Writable(fields[i])
    {
      if i == 0 {
        assert fields[i] == Query.Pair("username", user);
      } else if i == 1 {
        assert fields[i] == Query.Pair("hostname", host);
      } else {
        assert fields[i] == Query.Pair("privatekey", key.value);
      }
    }
  }

  lemma FieldNamesPlain()
    ensures Query.PlainName("username") && Query.PlainName("hostname") && Query.PlainName("privatekey")
  {
    LowercaseIsPlain("username");
    LowercaseIsPlain("hostname");
    LowercaseIsPlain("privatekey");
  }

  /** A name of lower-case letters needs no escaping. */
  lemma LowercaseIsPlain(name: string)
    requires name != "" && forall i :: 0 <= i < |name| ==> 'a' <= name[i] <= 'z'
    ensures Query.PlainName(name)
  {
  }

  /** The credentials read from a form of readable values are those values
      unescaped. */
  lemma FormReadsBack(user: bytes, host: bytes, key: Option<bytes>)
    requires Readable(user) && Readable(host) && (key.Some? ==> Readable(key.value))
    ensures Query.ParseQuery(Form(user, host, key)).ok
    ensures CredentialsOf(Query.ParseQuery(Form(user, host, key)).pairs)
         == Credentials(Query.Unescape(host).value, Query.Unescape(user).value, "",
                        if key.Some? then Query.Unescape(key.value).value else "")
  {
    FormParses(user, host, key);
    var u, h := Query.Unescape(user).value, Query.Unescape(host).value;
    if key.Some? {
      var k := Query.Unescape(key.value).value;
      assert ReadValues(user, host, key) == [Query.Pair("username", u), Query.Pair("hostname", h), Query.Pair("privatekey", k)];
      ReadThreeFields(u, h, k);
    } else {
      assert ReadValues(user, host, key) == [Query.Pair("username", u), Query.Pair("hostname", h)];
      ReadTwoFields(u, h);
    }
  }

  /** Whatever the values, a token carrying a form of readable values
      decrypts to credentials holding those values unescaped. */
  lemma FormRoundTrip(user: bytes, host: bytes, key: Option<bytes>, fernetKey: string,
                      encrypt: bytes -> string, decrypt: string -> Option<bytes>)
    requires fernetKey != ""
    requires forall p :: decrypt(encrypt(p)) == Some(p)
    requires Readable(user) && Readable(host) && (key.Some? ==> Readable(key.value))
    ensures DecryptAccess(fernetKey, true, decrypt, encrypt(Base64.Encode(Form(user, host, key))))
         == Ok(Credentials(Query.Unescape(host).value, Query.Unescape(user).value, "",
                           if key.Some? then Query.Unescape(key.value).value else ""))
  {
    var encoded := Base64.Encode(Form(user, host, key));
    assert decrypt(encrypt(encoded)) == Some(encoded);
    Base64.DecodeEncode(Form(user, host, key));
    FormReadsBack(user, host, key);
  }

  /** A value that url.ParseQuery hands back unchanged. */
  predicate PlainValue(s: string) {
    '&' !in s && '%' !in s && '+' !in s && ';' !in s
  }

  /** The token round trip as written: a user and a host free of the query
      metacharacters come back exactly, but the private key comes back with
      every '+' of its base64 turned into a space. */
  lemma AccessRoundTrip(user: bytes, host: bytes, key: Option<bytes>, fernetKey: string,
                        encrypt: bytes -> string, decrypt: string -> Option<bytes>)
    requires fernetKey != ""
    requires forall p :: decrypt(encrypt(p)) == Some(p)
    requires PlainValue(user) && PlainValue(host)
    ensures DecryptAccess(fernetKey, true, decrypt, GenerateAccessToken(user, host, key, encrypt))
         == Ok(Credentials(host, user, "", if key.Some? then Query.PlusToSpace(Base64.Encode(key.value)) else ""))
  {
    Query.PlainUnescapesToItself(user);
    Query.PlainUnescapesToItself(host);
    if key.Some? {
      var e := Base64.Encode(key.value);
      Base64.EncodeAvoids(key.value, '&');
      Base64.EncodeAvoids(key.value, ';');
      Base64.EncodeAvoids(key.value, '%');
      Query.UnescapeWithoutPercent(e);
      FormRoundTrip(user, host, Some(e), fernetKey, encrypt, decrypt);
    } else {
      FormRoundTrip(user, host, None, fernetKey, encrypt, decrypt);
    }
  }

  /** So the key text survives exactly when its base64 holds no '+'. */
  lemma KeySurvivesIffNoPlus(user: bytes, host: bytes, key: bytes, fernetKey: string,
                             encrypt: bytes -> string, decrypt: string -> Option<bytes>)
    requires fernetKey != ""
    requires forall p :: decrypt(encrypt(p)) == Some(p)
    requires PlainValue(user) && PlainValue(host)
    ensures var r := DecryptAccess(fernetKey, true, decrypt, GenerateAccessToken(user, host, Some(key), encrypt));
      r.Ok? && (r.creds.privateKey == Base64.Encode(key) <==> '+' !in Base64.Encode(key))
  {
    AccessRoundTrip(user, host, Some(key), fernetKey, encrypt, decrypt);
    Query.PlusToSpaceChanges(Base64.Encode(key));
  }

  /** A one-byte key file holding 0xF8 is enough: its base64 is "+A==", the
      key text recovered is " A==", and that text no longer decodes as
      base64. */
  lemma PlusKeyCounterexample(user: bytes, host: bytes, fernetKey: string,
                              encrypt: bytes -> string, decrypt: string -> Option<bytes>)
    requires fernetKey != ""
    requires forall p :: decrypt(encrypt(p)) == Some(p)
    requires PlainValue(user) && PlainValue(host)
    ensures DecryptAccess(fernetKey, true, decrypt, GenerateAccessToken(user, host, Some(['\U{F8}']), encrypt))
         == Ok(Credentials(host, user, "", " A=="))
    ensures !Base64.DecodeString(" A==").ok
  {
    var key: bytes := ['\U{F8}'];
    AccessRoundTrip(user, host, Some(key), fernetKey, encrypt, decrypt);
    Base64.EncodeF8();
    SpacedF8();
    Base64.SpacedF8Corrupt();
  }

  lemma SpacedF8()
    ensures Query.PlusToSpace("+A==") == " A=="
  {
  }

  // ---------------------------------------------------------------- corrected payload

  /** The payload with every value query-escaped, as urllib.parse.urlencode
      writes it. */
  function EscapedPayload(user: bytes, host: bytes, key: Option<bytes>): bytes {
    Form(Query.Escape(user), Query.Escape(host), if key.Some? then Some(Query.Escape(Base64.Encode(key.value))) else None)
  }

  function GenerateAccessTokenEscaped(user: bytes, host: bytes, key: Option<bytes>, encrypt: bytes -> string): string {
    encrypt(Base64.Encode(EscapedPayload(user, host, key)))
  }

  /** With escaping, every user, host and key comes back exactly. */
  lemma EscapedAccessRoundTrip(user: bytes, host: bytes, key: Option<bytes>, fernetKey: string,
                               encrypt: bytes -> string, decrypt: string -> Option<bytes>)
    requires fernetKey != ""
    requires forall p :: decrypt(encrypt(p)) == Some(p)
    ensures DecryptAccess(fernetKey, true, decrypt, GenerateAccessTokenEscaped(user, host, key, encrypt))
         == Ok(Credentials(host, user, "", if key.Some? then Base64.Encode(key.value) else ""))
  {
    Query.UnescapeEscape(user);
    Query.UnescapeEscape(host);
    if key.Some? {
      Query.UnescapeEscape(Base64.Encode(key.value));
      FormRoundTrip(Query.Escape(user), Query.Escape(host), Some(Query.Escape(Base64.Encode(key.value))), fernetKey, encrypt, decrypt);
    } else {
      FormRoundTrip(Query.Escape(user), Query.Escape(host), None, fernetKey, encrypt, decrypt);
    }
  }
}

=== FILE: base64.dfy ===
/** Base64 with the standard alphabet and '=' padding (section 4 of RFC 4648).

    `Encode` is what Python's base64.b64encode produces.  `DecodeString` follows
    Go's base64.StdEncoding.DecodeString: carriage returns and line feeds are
    skipped, the input is read four characters (one quantum) at a time, padding
    is required, the unused low bits of a padded quantum are not checked, and on
    an error the bytes of the quanta decoded before it are still returned.
 */
module Base64 {
  import opened Text

  const Pad: char := '='

  /** The character standing for the 6-bit value `v`. */
  function Letter(v: int): (c: byte)
    requires 0 <= v < 64
    ensures IsLetter(c) && c != Pad
  {
    if v < 26 then ('A' as int + v) as char
    else if v < 52 then ('a' as int + (v - 26)) as char
    else if v < 62 then ('0' as int + (v - 52)) as char
    else if v == 62 then '+'
    else '/'
  }

  predicate IsLetter(c: char) {
    ('A' <= c <= 'Z') || ('a' <= c <= 'z') || ('0' <= c <= '9') || c == '+' || c == '/'
  }

  /** The 6-bit value of an alphabet character; `Letter` undoes it. */
  function Sextet(c: char): (v: int)
    requires IsLetter(c)
    ensures 0 <= v < 64 && Letter(v) == c
  {
    if 'A' <= c <= 'Z' then c as int - 'A' as int
    else if 'a' <= c <= 'z' then c as int - 'a' as int + 26
    else if '0' <= c <= '9' then c as int - '0' as int + 52
    else if c == '+' then 62
    else 63
  }

  lemma SextetOfLetter(v: int)
    requires 0 <= v < 64
    ensures Sextet(Letter(v)) == v
  {
  }

  // ---------------------------------------------------------------- encoding

  /** Three bytes as four characters. */
  function Quantum(b0: byte, b1: byte, b2: byte): string {
    var x, y, z := b0 as int, b1 as int, b2 as int;
    [Letter(x / 4), Letter(x % 4 * 16 + y / 16), Letter(y % 16 * 4 + z / 64), Letter(z % 64)]
  }

  /** The padded encoding of `b`: one quantum of four characters for every
      group of three bytes, the last one padded with '='. */
  function Encode(b: bytes): (s: bytes)
    ensures |s| == (|b| + 2) / 3 * 4
    decreases |b|
  {
    if |b| == 0 then []
    else if |b| == 1 then
      var x := b[0] as int;
      [Letter(x / 4), Letter(x % 4 * 16), Pad, Pad]
    else if |b| == 2 then
      var x, y := b[0] as int, b[1] as int;
      [Letter(x / 4), Letter(x % 4 * 16 + y / 16), Letter(y % 16 * 4), Pad]
    else
      assert (|b| - 3 + 2) / 3 + 1 == (|b| + 2) / 3;
      Quantum(b[0], b[1], b[2]) + Encode(b[3..])
  }

  /** Every character of an encoding is an alphabet letter or '='. */
  lemma {:induction false} EncodeAlphabet(b: bytes)
    ensures forall i :: 0 <= i < |Encode(b)| ==> IsLetter(Encode(b)[i]) || Encode(b)[i] == Pad
    decreases |b|
  {
    if |b| >= 3 {
      var q, rest := Quantum(b[0], b[1], b[2]), Encode(b[3..]);
      EncodeFront(b);
      EncodeAlphabet(b[3..]);
      assert forall i :: 0 <= i < |q| ==> IsLetter(q[i]);
      assert forall i :: |q| <= i < |q + rest| ==> (q + rest)[i] == rest[i - |q|];
    }
  }

  /** Three bytes or more: one quantum, then the encoding of the rest. */
  lemma EncodeFront(b: bytes)
    requires |b| >= 3
    ensures Encode(b) == Quantum(b[0], b[1], b[2]) + Encode(b[3..])
  {
  }

  // ---------------------------------------------------------------- decoding

  /** The outcome of DecodeString: the bytes written and whether the error
      result was nil. */
  datatype Decoded = Decoded(data: bytes, ok: bool)

  function StripNewlines(s: string): (r: string)
    ensures '\n' !in r && '\r' !in r
    ensures forall c :: c in r ==> c in s
    ensures |r| <= |s|
  {
    if |s| == 0 then ""
    else if s[0] == '\n' || s[0] == '\r' then StripNewlines(s[1..])
    else [s[0]] + StripNewlines(s[1..])
  }

  /** base64.StdEncoding.DecodeString: newlines are skipped, and what is
      left must be whole quanta; at most three bytes come from every four
      characters. */
  function DecodeString(s: string): (d: Decoded)
    ensures d.ok ==> |StripNewlines(s)| % 4 == 0
    ensures |d.data| <= |s| / 4 * 3
  {
    var t := StripNewlines(s);
    assert |t| / 4 <= |s| / 4;
    DecodeQuanta(t)
  }

  /** The first byte of a quantum whose first two values are `v0`, `v1`. */
  function Byte0(v0: int, v1: int): byte
    requires 0 <= v0 < 64 && 0 <= v1 < 64
  {
    (v0 * 4 + v1 / 16) as char
  }

  function Byte1(v1: int, v2: int): byte
    requires 0 <= v1 < 64 && 0 <= v2 < 64
  {
    (v1 % 16 * 16 + v2 / 4) as char
  }

  function Byte2(v2: int, v3: int): byte
    requires 0 <= v2 < 64 && 0 <= v3 < 64
  {
    (v2 % 4 * 64 + v3) as char
  }

  /** Decoding of newline-free input, one quantum at a time. */
  function DecodeQuanta(s: string): (r: Decoded)
    ensures |r.data| <= |s| / 4 * 3
    ensures r.ok ==> |s| % 4 == 0
    decreases |s|
  {
    if |s| == 0 then Decoded([], true)
    else if |s| < 2 || !IsLetter(s[0]) || !IsLetter(s[1]) then Decoded([], false)
    else
      var v0, v1 := Sextet(s[0]), Sextet(s[1]);
      if |s| == 2 then Decoded([], false)
      else if s[2] == Pad then
        // "xx==" must end the input; anything after it is trailing garbage
        if |s| == 3 || s[3] != Pad then Decoded([], false)
        else Decoded([Byte0(v0, v1)], |s| == 4)
      else if !IsLetter(s[2]) || |s| == 3 then Decoded([], false)
      else
        var v2 := Sextet(s[2]);
        if s[3] == Pad then Decoded([Byte0(v0, v1), Byte1(v1, v2)], |s| == 4)
        else if !IsLetter(s[3]) then Decoded([], false)
        else
          var v3 := Sextet(s[3]);
          var rest := DecodeQuanta(s[4..]);
          Decoded([Byte0(v0, v1), Byte1(v1, v2), Byte2(v2, v3)] + rest.data, rest.ok)
  }

  // ---------------------------------------------------------------- round trip

  /** The arithmetic of one quantum: splitting three bytes into four 6-bit
      values and joining them again gives the bytes back. */
  lemma QuantumArithmetic(x: int, y: int, z: int)
    requires 0 <= x < 256 && 0 <= y < 256 && 0 <= z < 256
    ensures (x / 4) * 4 + (x % 4 * 16 + y / 16) / 16 == x
    ensures (x % 4 * 16 + y / 16) % 16 * 16 + (y % 16 * 4 + z / 64) / 4 == y
    ensures (y % 16 * 4 + z / 64) % 4 * 64 + z % 64 == z
  {
  }

  lemma {:induction false} DecodeEncode(b: bytes)
    ensures DecodeString(Encode(b)) == Decoded(b, true)
  {
    EncodeAvoids(b, '\n');
    EncodeAvoids(b, '\r');
    NoNewlines(Encode(b));
    DecodeQuantaEncode(b);
  }

  lemma {:induction false} NoNewlines(s: string)
    requires '\n' !in s && '\r' !in s
    ensures StripNewlines(s) == s
    decreases |s|
  {
    if |s| > 0 {
      NoNewlines(s[1..]);
      assert s == [s[0]] + s[1..];
    }
  }

  lemma {:induction false} DecodeQuantaEncode(b: bytes)
    ensures DecodeQuanta(Encode(b)) == Decoded(b, true)
    decreases |b|
  {
    if |b| == 1 {
      DecodeLastOne(b[0]);
      assert b == [b[0]];
    } else if |b| == 2 {
      DecodeLastTwo(b[0], b[1]);
      assert b == [b[0], b[1]];
    } else if |b| >= 3 {
      DecodeQuantaEncode(b[3..]);
      DecodeGroupThenRest(b);
    }
  }

  /** Three bytes or more: the first quantum decodes to the first three
      bytes, and decoding continues with the encoding of the rest. */
  lemma DecodeGroupThenRest(b: bytes)
    requires |b| >= 3
    requires DecodeQuanta(Encode(b[3..])) == Decoded(b[3..], true)
    ensures DecodeQuanta(Encode(b)) == Decoded(b, true)
  {
    EncodeFront(b);
    DecodeFullQuantum(b[0], b[1], b[2], Encode(b[3..]));
    FirstThree(b);
  }

  lemma FirstThree(b: bytes)
    requires |b| >= 3
    ensures b == [b[0], b[1], b[2]] + b[3..]
  {
    assert b == b[..3] + b[3..];
  }

  /** The bytes a quantum decodes to are the bytes it was made from. */
  lemma QuantumBytes(b0: byte, b1: byte, b2: byte)
    ensures var x, y, z := b0 as int, b1 as int, b2 as int;
      && Byte0(x / 4, x % 4 * 16 + y / 16) == b0
      && Byte1(x % 4 * 16 + y / 16, y % 16 * 4 + z / 64) == b1
      && Byte2(y % 16 * 4 + z / 64, z % 64) == b2
  {
    QuantumArithmetic(b0 as int, b1 as int, b2 as int);
  }

  lemma DecodeFullQuantum(b0: byte, b1: byte, b2: byte, rest: string)
    ensures DecodeQuanta(Quantum(b0, b1, b2) + rest)
         == Decoded([b0, b1, b2] + DecodeQuanta(rest).data, DecodeQuanta(rest).ok)
  {
    var x, y, z := b0 as int, b1 as int, b2 as int;
    var s := Quantum(b0, b1, b2) + rest;
    SextetOfLetter(x / 4);
    SextetOfLetter(x % 4 * 16 + y / 16);
    SextetOfLetter(y % 16 * 4 + z / 64);
    SextetOfLetter(z % 64);
    QuantumBytes(b0, b1, b2);
    assert s[4..] == rest;
  }

  lemma DecodeLastOne(b0: byte)
    ensures DecodeQuanta(Encode([b0])) == Decoded([b0], true)
  {
    var x := b0 as int;
    SextetOfLetter(x / 4);
    SextetOfLetter(x % 4 * 16);
    QuantumBytes(b0, 0 as char, 0 as char);
  }

  lemma DecodeLastTwo(b0: byte, b1: byte)
    ensures DecodeQuanta(Encode([b0, b1])) == Decoded([b0, b1], true)
  {
    var x, y := b0 as int, b1 as int;
    SextetOfLetter(x / 4);
    SextetOfLetter(x % 4 * 16 + y / 16);
    SextetOfLetter(y % 16 * 4);
    QuantumBytes(b0, b1, 0 as char);
  }

  /** An encoding holds no character outside the alphabet and '=': none of
      the separators '&', ';', '%' or '|' in particular. */
  lemma EncodeAvoids(b: bytes, c: char)
    requires !IsLetter(c) && c != Pad
    ensures c !in Encode(b)
  {
    var s := Encode(b);
    EncodeAlphabet(b);
    forall i | 0 <= i < |s|
      ensures s[i] != c
    {
      assert IsLetter(s[i]) || s[i] == Pad;
    }
  }

  /** The byte 0xF8 encodes as "+A==": its top six bits are 62. */
  lemma EncodeF8()
    ensures Encode(['\U{F8}']) == "+A=="
  {
  }

  /** " A==" is not base64: a space is not in the alphabet. */
  lemma SpacedF8Corrupt()
    ensures !DecodeString(" A==").ok
  {
    assert StripNewlines(" A==") == " A==";
  }
}

=== FILE: bootstrap.dfy ===
/** How wsHandler obtains the connection parameters of an interactive session:
    from the query of the upgrade request, or, when that names no host, from a
    first websocket message `host|user|password|privatekey_base64`. */
module Bootstrap {
  import opened Text
  import Base64

  /** The arguments handleSSHConnection is called with. */
  datatype ConnectParams = ConnectParams(host: string, user: string, password: string, privateKey: bytes)

  /** The query parameters of the upgrade request ("" when absent). */
  datatype WsQuery = WsQuery(host: string, user: string, password: string, privateKey: string)

  /** The bootstrap record applied to the parameters gathered so far: with at
      least two fields the first two are the host and the user, a third is the
      password, and a non-empty fourth is the base64 key, decoded with its
      error ignored (a corrupt key yields the bytes decoded before the
      corruption).  Fields after the fourth are ignored; a record of one field
      changes nothing. */
  function ApplyBootstrap(record: string, p: ConnectParams): (r: ConnectParams)
    ensures '|' !in record ==> r == p
    ensures '|' in record ==> '|' !in r.host && '|' !in r.user
    ensures '|' in record ==> record == r.host + "|" + r.user || r.host + "|" + r.user + "|" <= record
  {
    var parts := Split(record, '|');
    if |parts| < 2 then p
    else
      JoinFront(parts, '|');
      var password := if |parts| > 2 then parts[2] else p.password;
      var key := if |parts| > 3 && parts[3] != "" then Base64.DecodeString(parts[3]).data else p.privateKey;
      ConnectParams(parts[0], parts[1], password, key)
  }

  /** A joined sequence of two pieces is those pieces around the separator;
      one of more pieces starts with its first two and a separator after each. */
  lemma JoinFront(parts: seq<string>, sep: char)
    requires |parts| >= 2
    ensures |parts| == 2 ==> Join(parts, sep) == parts[0] + [sep] + parts[1]
    ensures |parts| > 2 ==> parts[0] + [sep] + parts[1] + [sep] <= Join(parts, sep)
  {
    var tail := Join(parts[1..], sep);
    assert parts[1..][0] == parts[1];
    if |parts| > 2 {
      assert parts[1] + [sep] + Join(parts[2..], sep) == tail by {
        assert parts[1..][1..] == parts[2..];
      }
    }
    assert parts[1] <= tail;
  }

  /** A record written from four fields holding no '|' and a non-empty key
      gives back exactly those fields, whatever was gathered before. */
  lemma {:induction false} BootstrapRecordRoundTrip(host: string, user: string, password: string, key: bytes, p: ConnectParams)
    requires '|' !in host && '|' !in user && '|' !in password && |key| > 0
    ensures ApplyBootstrap(Join([host, user, password, Base64.Encode(key)], '|'), p) == ConnectParams(host, user, password, key)
  {
    var fields := [host, user, password, Base64.Encode(key)];
    Base64.EncodeAvoids(key, '|');
    SplitJoin(fields, '|');
    Base64.DecodeEncode(key);
  }

  /** A record of two fields sets the host and the user and keeps the
      password and the key gathered before. */
  lemma {:induction false} TwoFieldRecord(host: string, user: string, p: ConnectParams)
    requires '|' !in host && '|' !in user
    ensures ApplyBootstrap(Join([host, user], '|'), p) == ConnectParams(host, user, p.password, p.privateKey)
  {
    SplitJoin([host, user], '|');
  }

  /** A record of three fields sets the host, the user and the password and
      keeps the key gathered before. */
  lemma {:induction false} ThreeFieldRecord(host: string, user: string, password: string, p: ConnectParams)
    requires '|' !in host && '|' !in user && '|' !in password
    ensures ApplyBootstrap(Join([host, user, password], '|'), p) == ConnectParams(host, user, password, p.privateKey)
  {
    SplitJoin([host, user, password], '|');
  }

  /** An empty fourth field keeps the key gathered before. */
  lemma {:induction false} EmptyKeyFieldRecord(host: string, user: string, password: string, p: ConnectParams)
    requires '|' !in host && '|' !in user && '|' !in password
    ensures ApplyBootstrap(Join([host, user, password, ""], '|'), p) == ConnectParams(host, user, password, p.privateKey)
  {
    SplitJoin([host, user, password, ""], '|');
  }

  /** A non-empty fourth field replaces the key gathered before with whatever
      it decodes to, the decoding error being ignored. */
  lemma {:induction false} FourthFieldKey(host: string, user: string, password: string, key: string, p: ConnectParams)
    requires '|' !in host && '|' !in user && '|' !in password && '|' !in key && key != ""
    ensures ApplyBootstrap(Join([host, user, password, key], '|'), p) == ConnectParams(host, user, password, Base64.DecodeString(key).data)
  {
    SplitJoin([host, user, password, key], '|');
  }

  /** So a corrupt fourth field leaves no key at all, even when the query
      carried one: only the password is left to authenticate with. */
  lemma CorruptKeyFieldDropsKey(host: string, user: string, password: string, p: ConnectParams)
    requires '|' !in host && '|' !in user && '|' !in password
    ensures ApplyBootstrap(Join([host, user, password, "!!!!"], '|'), p).privateKey == []
  {
    FourthFieldKey(host, user, password, "!!!!", p);
    assert Base64.StripNewlines("!!!!") == "!!!!";
  }

  /** Fields after the fourth do not matter. */
  lemma {:induction false} ExtraFieldsIgnored(fields: seq<string>, extra: seq<string>, p: ConnectParams)
    requires |fields| == 4 && |extra| >= 1
    requires forall i :: 0 <= i < |fields + extra| ==> '|' !in (fields + extra)[i]
    ensures ApplyBootstrap(Join(fields + extra, '|'), p) == ApplyBootstrap(Join(fields, '|'), p)
  {
    assert forall i :: 0 <= i < |fields| ==> fields[i] == (fields + extra)[i];
    SplitJoin(fields + extra, '|');
    SplitJoin(fields, '|');
  }

  /** What wsHandler does after the upgrade. */
  datatype WsOutcome =
    | SendError(text: string)          // a text frame, then the connection is closed
    | Abandon                          // the first message could not be read
    | Connect(params: ConnectParams)   // handleSSHConnection(params)

  const InvalidKey: string := "Error: Invalid private key encoding"
  const MissingHostOrUser: string := "Error: Missing host or user"

  /** The key bytes carried by the query, and whether they decoded. */
  function QueryKey(q: WsQuery): (k: Base64.Decoded)
    ensures q.privateKey == "" ==> k == Base64.Decoded([], true)
    ensures k.ok ==> |Base64.StripNewlines(q.privateKey)| % 4 == 0
  {
    if q.privateKey != "" then Base64.DecodeString(q.privateKey) else Base64.Decoded([], true)
  }

  /** A key sent as the standard encoding of some bytes arrives as exactly
      those bytes, the empty key included. */
  lemma QueryKeyOfEncoded(q: WsQuery, key: bytes)
    requires q.privateKey == Base64.Encode(key)
    ensures QueryKey(q) == Base64.Decoded(key, true)
  {
    Base64.DecodeEncode(key);
  }

  /** wsHandler: the query key is decoded first; the first message is read
      only when the query names no host; the connection is made only with a
      host and a user.  `firstMessage` is None when reading it fails. */
  function WsHandler(q: WsQuery, firstMessage: Option<string>): (o: WsOutcome)
    ensures !QueryKey(q).ok <==> o == SendError(InvalidKey)
    ensures o.Abandon? <==> QueryKey(q).ok && q.host == "" && firstMessage.None?
    ensures o.Connect? ==> o.params.host != "" && o.params.user != ""
    ensures o.Connect? && q.host != "" ==> o.params == ConnectParams(q.host, q.user, q.password, QueryKey(q).data)
    ensures QueryKey(q).ok && q.host != "" && q.user != "" ==> o == Connect(ConnectParams(q.host, q.user, q.password, QueryKey(q).data))
    ensures QueryKey(q).ok && q.host != "" && q.user == "" ==> o == SendError(MissingHostOrUser)
    ensures QueryKey(q).ok && q.host == "" && firstMessage.Some? ==>
      var p := ApplyBootstrap(firstMessage.value, ConnectParams(q.host, q.user, q.password, QueryKey(q).data));
      o == (if p.host == "" || p.user == "" then SendError(MissingHostOrUser) else Connect(p))
    ensures o.SendError? ==> o.text == InvalidKey || o.text == MissingHostOrUser
  {
    var key := QueryKey(q);
    if !key.ok then SendError(InvalidKey)
    else
      var gathered := ConnectParams(q.host, q.user, q.password, key.data);
      if q.host == "" && firstMessage.None? then Abandon
      else
        var p := if q.host == "" then ApplyBootstrap(firstMessage.value, gathered) else gathered;
        if p.host == "" || p.user == "" then SendError(MissingHostOrUser)
        else Connect(p)
  }

  /** The query takes precedence: when it names a host, the first message is
      never consulted. */
  lemma QueryTakesPrecedence(q: WsQuery, m1: Option<string>, m2: Option<string>)
    requires q.host != ""
    ensures WsHandler(q, m1) == WsHandler(q, m2)
  {
  }

  /** Without a host in the query, a well-formed bootstrap record with a
      non-empty host, user and key connects with exactly its fields. */
  lemma BootstrapConnects(q: WsQuery, host: string, user: string, password: string, key: bytes)
    requires q.host == "" && QueryKey(q).ok
    requires '|' !in host && '|' !in user && '|' !in password && |key| > 0
    requires host != "" && user != ""
    ensures WsHandler(q, Some(Join([host, user, password, Base64.Encode(key)], '|')))
         == Connect(ConnectParams(host, user, password, key))
  {
    BootstrapRecordRoundTrip(host, user, password, key, ConnectParams(q.host, q.user, q.password, QueryKey(q).data));
  }

  /** A record without '|' leaves the host empty, so the client is told the
      host or user is missing. */
  lemma ShortRecordRefused(q: WsQuery, record: string)
    requires q.host == "" && QueryKey(q).ok && '|' !in record
    ensures WsHandler(q, Some(record)) == SendError(MissingHostOrUser)
  {
  }
}

=== FILE: bridge.dfy ===
/** The running session of handleSSHConnection: the control loop that turns
    websocket messages into actions on the shell, and the two loops that relay
    the shell's standard output and standard error to the websocket.  Each
    loop is a fold over the sequence of results its reads return. */
module Bridge {
  import opened Text

  // ---------------------------------------------------------------- control

  /** A decoded websocket control message; fields absent from the JSON are ""
      or 0. */
  datatype WSMessage = WSMessage(msgType: string, data: string, cols: int, rows: int, filename: string, size: int)

  /** What the control loop does for one message. */
  datatype Action =
    | WriteStdin(data: string)               // stdin.Write([]byte(msg.Data))
    | WindowChange(rows: int, cols: int)     // session.WindowChange(msg.Rows, msg.Cols)
    | SpawnUpload(filename: string, data: string)  // go handleFileUpload(...)
    | CloseStdin                             // stdin.Close() after a websocket read error

  /** The action for a message; None for a type the loop does not know. */
  function Dispatch(m: WSMessage): (a: Option<Action>)
    ensures a == Some(WriteStdin(m.data)) <==> m.msgType == "input"
    ensures a == Some(WindowChange(m.rows, m.cols)) <==> m.msgType == "resize"
    ensures a == Some(SpawnUpload(m.filename, m.data)) <==> m.msgType == "upload"
    ensures a.None? <==> m.msgType !in {"input", "resize", "upload"}
    ensures a != Some(CloseStdin)
  {
    if m.msgType == "input" then Some(WriteStdin(m.data))
    else if m.msgType == "resize" then Some(WindowChange(m.rows, m.cols))
    else if m.msgType == "upload" then Some(SpawnUpload(m.filename, m.data))
    else None
  }

  /** A resize request is passed on exactly as received: no clamping, so a
      zero or negative size reaches the window-change request unaltered. */
  lemma ResizeUnaltered(rows: int, cols: int, m: WSMessage)
    requires m.msgType == "resize" && m.rows == rows && m.cols == cols
    ensures Dispatch(m) == Some(WindowChange(rows, cols))
    ensures Dispatch(WSMessage("resize", "", 120, 40, "", 0)) == Some(WindowChange(40, 120))
  {
  }

  /** One result of wsConn.ReadMessage: a read error, or a message that did or
      did not decode as JSON.  `stdinOpen` says whether the shell's input
      accepts a write at that moment; it only matters for "input" messages. */
  datatype ClientEvent = ReadError | Message(decoded: Option<WSMessage>, stdinOpen: bool)

  /** The control loop over the events it reads, in order: undecodable
      messages are skipped, a read error closes the shell's input and ends the
      loop, a failed input write ends the loop without closing it. */
  function ControlLoop(events: seq<ClientEvent>): (actions: seq<Action>)
    ensures forall i :: 0 <= i < |actions| - 1 ==> actions[i] != CloseStdin
    decreases |events|
  {
    if |events| == 0 then []
    else
      match events[0]
      case ReadError => [CloseStdin]
      case Message(None, _) => ControlLoop(events[1..])
      case Message(Some(m), stdinOpen) =>
        match Dispatch(m)
        case None => ControlLoop(events[1..])
        case Some(a) =>
          if a.WriteStdin? && !stdinOpen then [a]
          else [a] + ControlLoop(events[1..])
  }

  /** The loop is online: reading more events only adds actions after the
      ones already taken. */
  lemma {:induction false} ControlLoopPrefix(events: seq<ClientEvent>, more: seq<ClientEvent>)
    ensures ControlLoop(events) <= ControlLoop(events + more)
    decreases |events|
  {
    if |events| > 0 {
      assert (events + more)[1..] == events[1..] + more;
      ControlLoopPrefix(events[1..], more);
    }
  }

  /** The shell's input is closed only after a read error. */
  lemma {:induction false} CloseOnlyOnReadError(events: seq<ClientEvent>)
    ensures CloseStdin in ControlLoop(events) ==> ReadError in events
    decreases |events|
  {
    if |events| > 0 && events[0] != ReadError {
      CloseOnlyOnReadError(events[1..]);
    }
  }

  /** Messages the loop can always read past: every one of them is read
      without error, and every "input" message finds the shell's input open.
      Other messages are handled whatever the state of the shell's input. */
  predicate Delivered(events: seq<ClientEvent>) {
    forall i :: 0 <= i < |events| ==>
      events[i].Message? && (events[i].decoded.Some? && events[i].decoded.value.msgType == "input" ==> events[i].stdinOpen)
  }

  /** A websocket read error, once the loop reaches it, closes the shell's
      input and ends the loop: nothing is done for the events after it. */
  lemma {:induction false} ReadErrorCloses(events: seq<ClientEvent>, k: int)
    requires 0 <= k < |events| && events[k] == ReadError && Delivered(events[..k])
    ensures ControlLoop(events) == ControlLoop(events[..k]) + [CloseStdin]
    decreases k
  {
    if k > 0 {
      assert events[..k][0] == events[0];
      assert events[..k][1..] == events[1..][..k - 1];
      ReadErrorCloses(events[1..], k - 1);
    }
  }

  /** A failed write of an "input" message ends the loop after that write,
      without closing the shell's input. */
  lemma {:induction false} FailedWriteStops(events: seq<ClientEvent>, k: int)
    requires 0 <= k < |events| && Delivered(events[..k])
    requires events[k].Message? && events[k].decoded.Some? && !events[k].stdinOpen
    requires events[k].decoded.value.msgType == "input"
    ensures ControlLoop(events) == ControlLoop(events[..k]) + [WriteStdin(events[k].decoded.value.data)]
    ensures CloseStdin !in ControlLoop(events)
    decreases k
  {
    if k > 0 {
      assert events[..k][0] == events[0];
      assert events[..k][1..] == events[1..][..k - 1];
      FailedWriteStops(events[1..], k - 1);
    }
  }

  /** Every "input" message's data, in order. */
  function InputData(events: seq<ClientEvent>): string
    decreases |events|
  {
    if |events| == 0 then ""
    else
      match events[0]
      case Message(Some(m), _) =>
        (if m.msgType == "input" then m.data else "") + InputData(events[1..])
      case _ => InputData(events[1..])
  }

  /** Everything written to the shell's input, in order. */
  function StdinBytes(actions: seq<Action>): string
    decreases |actions|
  {
    if |actions| == 0 then ""
    else (if actions[0].WriteStdin? then actions[0].data else "") + StdinBytes(actions[1..])
  }

  /** The reference behaviour of the loop over delivered messages: the
      dispatched action of every decoded message, in order. */
  function Dispatched(events: seq<ClientEvent>): seq<Action>
    decreases |events|
  {
    if |events| == 0 then []
    else
      var rest := Dispatched(events[1..]);
      match events[0]
      case Message(Some(m), _) => (if Dispatch(m).Some? then [Dispatch(m).value] else []) + rest
      case _ => rest
  }

  /** While the websocket keeps delivering and the shell's input stays open,
      the loop does exactly the dispatched action of each message it reads,
      in order, and nothing else. */
  lemma {:induction false} DeliveredLoopDispatches(events: seq<ClientEvent>)
    requires Delivered(events)
    ensures ControlLoop(events) == Dispatched(events)
    decreases |events|
  {
    if |events| > 0 {
      assert events[0].decoded.Some? && events[0].decoded.value.msgType == "input" ==> events[0].stdinOpen;
      DeliveredLoopDispatches(events[1..]);
    }
  }

  /** Everything the dispatched actions write to the shell's input is the
      data of the "input" messages. */
  lemma {:induction false} DispatchedStdin(events: seq<ClientEvent>)
    ensures StdinBytes(Dispatched(events)) == InputData(events)
    decreases |events|
  {
    if |events| > 0 {
      DispatchedStdin(events[1..]);
      match events[0]
      case ReadError =>
      case Message(None, _) =>
      case Message(Some(m), _) =>
        match Dispatch(m)
        case None =>
          assert m.msgType != "input";
          assert InputData(events) == "" + InputData(events[1..]) == InputData(events[1..]);
          assert Dispatched(events) == [] + Dispatched(events[1..]) == Dispatched(events[1..]);
        case Some(a) =>
          assert ([a] + Dispatched(events[1..]))[1..] == Dispatched(events[1..]);
    }
  }

  /** While the websocket keeps delivering and the shell's input stays open,
      the shell receives exactly the data of the "input" messages, verbatim
      and in order. */
  lemma {:induction false} StdinGetsInputVerbatim(events: seq<ClientEvent>)
    requires Delivered(events)
    ensures StdinBytes(ControlLoop(events)) == InputData(events)
  {
    DeliveredLoopDispatches(events);
    DispatchedStdin(events);
  }

  /** The number of decoded "resize" messages asking for (rows, cols). */
  function ResizeCount(events: seq<ClientEvent>, rows: int, cols: int): nat
    decreases |events|
  {
    if |events| == 0 then 0
    else
      var here := match events[0]
        case Message(Some(m), _) => if m.msgType == "resize" && m.rows == rows && m.cols == cols then 1 else 0
        case _ => 0;
      here + ResizeCount(events[1..], rows, cols)
  }

  lemma {:induction false} DispatchedResizes(events: seq<ClientEvent>, rows: int, cols: int)
    ensures multiset(Dispatched(events))[WindowChange(rows, cols)] == ResizeCount(events, rows, cols)
    decreases |events|
  {
    if |events| > 0 {
      DispatchedResizes(events[1..], rows, cols);
      match events[0]
      case ReadError =>
      case Message(None, _) =>
      case Message(Some(m), _) =>
        var rest := Dispatched(events[1..]);
        match Dispatch(m)
        case None =>
        case Some(a) =>
          assert multiset([a] + rest) == multiset([a]) + multiset(rest);
    }
  }

  /** While the websocket keeps delivering, every resize to (rows, cols) that
      arrives gives exactly one window change to (rows, cols): as many window
      changes as such messages, none dropped and none added. */
  lemma {:induction false} ResizesCounted(events: seq<ClientEvent>, rows: int, cols: int)
    requires Delivered(events)
    ensures multiset(ControlLoop(events))[WindowChange(rows, cols)] == ResizeCount(events, rows, cols)
  {
    DeliveredLoopDispatches(events);
    DispatchedResizes(events, rows, cols);
  }

  // ---------------------------------------------------------------- output relay

  /** The size of the relay buffer: a read returns at most this many bytes. */
  const BufferSize: int := 1024

  /** One result of stdout.Read / stderr.Read: the bytes read, or an error
      (io.EOF or another) together with any bytes returned alongside it. */
  datatype ReadResult = Chunk(data: bytes) | Failed(data: bytes, eof: bool)

  /** io.Reader never returns more than the buffer it was given. */
  predicate FitsBuffer(results: seq<ReadResult>) {
    forall i :: 0 <= i < |results| ==> |results[i].data| <= BufferSize
  }

  /** What a relay loop sent and whether it stopped; `done` is the signal on
      the done channel that ends the session. */
  datatype Relayed = Relayed(frames: seq<bytes>, stopped: bool, done: bool)

  /** The bytes of the successful reads before the first error. */
  function BytesRead(results: seq<ReadResult>): bytes
    decreases |results|
  {
    if |results| == 0 || results[0].Failed? then [] else results[0].data + BytesRead(results[1..])
  }

  predicate HasError(results: seq<ReadResult>) {
    exists i :: 0 <= i < |results| && results[i].Failed?
  }

  function Flatten(frames: seq<bytes>): bytes
    decreases |frames|
  {
    if |frames| == 0 then [] else frames[0] + Flatten(frames[1..])
  }

  /** The relay loop: every non-empty read becomes one binary frame, and the
      first error ends the loop; only the stdout loop then signals `done`.
      Bytes returned together with an error are not sent. */
  function Relay(results: seq<ReadResult>, isStdout: bool): (r: Relayed)
    requires FitsBuffer(results)
    ensures forall i :: 0 <= i < |r.frames| ==> 0 < |r.frames[i]| <= BufferSize
    ensures Flatten(r.frames) == BytesRead(results)
    ensures r.stopped <==> HasError(results)
    ensures r.done <==> isStdout && HasError(results)
    decreases |results|
  {
    if |results| == 0 then Relayed([], false, false)
    else if results[0].Failed? then
      Relayed([], true, isStdout)
    else
      var rest := Relay(results[1..], isStdout);
      assert HasError(results) <==> HasError(results[1..]) by {
        if HasError(results) {
          var i :| 0 <= i < |results| && results[i].Failed?;
          assert results[1..][i - 1].Failed?;
        }
        if HasError(results[1..]) {
          var i :| 0 <= i < |results[1..]| && results[1..][i].Failed?;
          assert results[i + 1].Failed?;
        }
      }
      if |results[0].data| > 0 then Relayed([results[0].data] + rest.frames, rest.stopped, rest.done)
      else rest
  }

  /** Until the first error, each read adds exactly its own bytes as one
      frame, or nothing when it read no bytes. */
  lemma {:induction false} RelayOneFramePerRead(results: seq<ReadResult>, d: bytes, isStdout: bool)
    requires FitsBuffer(results + [Chunk(d)]) && !HasError(results)
    ensures FitsBuffer(results)
    ensures Relay(results + [Chunk(d)], isStdout).frames == Relay(results, isStdout).frames + (if |d| > 0 then [d] else [])
    decreases |results|
  {
    assert forall i :: 0 <= i < |results| ==> (results + [Chunk(d)])[i] == results[i];
    if |results| > 0 {
      assert !results[0].Failed?;
      assert (results + [Chunk(d)])[1..] == results[1..] + [Chunk(d)];
      RelayOneFramePerRead(results[1..], d, isStdout);
    } else {
      assert results + [Chunk(d)] == [Chunk(d)];
    }
  }

  /** The relay is online too: frames sent for a prefix of the reads are a
      prefix of the frames sent for all of them. */
  lemma {:induction false} RelayPrefix(results: seq<ReadResult>, more: seq<ReadResult>, isStdout: bool)
    requires FitsBuffer(results + more)
    ensures FitsBuffer(results)
    ensures Relay(results, isStdout).frames <= Relay(results + more, isStdout).frames
    decreases |results|
  {
    assert forall i :: 0 <= i < |results| ==> (results + more)[i] == results[i];
    if |results| > 0 && results[0].Chunk? {
      assert (results + more)[1..] == results[1..] + more;
      RelayPrefix(results[1..], more, isStdout);
    }
  }
}

=== FILE: connection.dfy ===
/** Building the SSH client configuration and the dial address (ssh.go), shared
    by the interactive session, the HTTP upload and the HTTP download. */
module Connection {
  import opened Text
  import opened Remote

  // ---------------------------------------------------------------- ports

  /** Position `i` of `host` holds a ':' with no ']' after it: the colon that
      separates a port, outside any bracketed IPv6 literal (section 3.2.2 of
      RFC 3986). */
  predicate PortColonAt(host: string, i: int) {
    0 <= i < |host| && host[i] == ':' && ']' !in host[i + 1..]
  }

  /** Some position of `host` is the colon before a port. */
  predicate HasPortColon(host: string) {
    exists i | 0 <= i < |host| :: PortColonAt(host, i)
  }

  /** containsPort: scanning from the end, a ':' is met before any ']'.
      So "h:2222" and "[::1]:22" carry a port, "h" and "[::1]" do not, and an
      unbracketed "::1" counts as carrying one. */
  function ContainsPort(host: string): (r: bool)
    ensures r <==> HasPortColon(host)
    decreases |host|
  {
    if |host| == 0 then false
    else
      ScanStep(host);
      var last := host[|host| - 1];
      if last == ':' then true
      else if last == ']' then false
      else ContainsPort(host[..|host| - 1])
  }

  /** One step of the backwards scan: what the last character decides, and
      that any other last character leaves the question to the rest. */
  lemma ScanStep(host: string)
    requires |host| > 0
    ensures host[|host| - 1] == ':' ==> PortColonAt(host, |host| - 1)
    ensures host[|host| - 1] == ']' ==> forall i :: !PortColonAt(host, i)
    ensures host[|host| - 1] != ':' && host[|host| - 1] != ']' ==>
      (HasPortColon(host) <==> HasPortColon(host[..|host| - 1]))
  {
    var n := |host|;
    var last := host[n - 1];
    var front := host[..n - 1];
    if last == ']' {
      forall i | 0 <= i < n - 1
        ensures !PortColonAt(host, i)
      {
        assert host[i + 1..][n - 2 - i] == ']';
      }
    } else if last != ':' {
      forall i | 0 <= i < n - 1
        ensures PortColonAt(host, i) <==> PortColonAt(front, i)
      {
        assert host[i + 1..] == front[i + 1..] + [last];
      }
      if exists i :: PortColonAt(host, i) {
        var i :| PortColonAt(host, i);
        assert PortColonAt(front, i);
      }
    }
  }

  lemma ContainsPortExamples()
    ensures !ContainsPort("h") && ContainsPort("h:2222")
    ensures !ContainsPort("[::1]") && ContainsPort("[::1]:22")
    ensures ContainsPort("::1")
  {
    assert PortColonAt("h:2222", 1);
    assert PortColonAt("[::1]:22", 5);
    assert PortColonAt("::1", 1);
    assert "[::1]"[4] == ']';
  }

  const DefaultPort: string := ":22"

  /** The dial address: `host` itself when it carries a port, otherwise the
      host with the SSH port 22 (section 4.1 of RFC 4253) appended. */
  function NormalizeHost(host: string): (addr: string)
    ensures ContainsPort(addr)
    ensures host <= addr
    ensures addr == host <==> ContainsPort(host)
    ensures addr != host ==> addr == host + DefaultPort
  {
    if ContainsPort(host) then host
    else
      assert PortColonAt(host + DefaultPort, |host|);
      host + DefaultPort
  }

  /** Normalising an address again changes nothing. */
  lemma NormalizeHostIdempotent(host: string)
    ensures NormalizeHost(NormalizeHost(host)) == NormalizeHost(host)
  {
  }

  // ---------------------------------------------------------------- auth

  datatype AuthMethod =
    | PasswordAuth(password: string)   // ssh.Password
    | PublicKeyAuth(key: bytes)        // ssh.PublicKeys of the signer parsed from `key`

  /** The authentication methods offered, in order: the password when one is
      given, then the public key when key bytes are given.  None when the key
      bytes do not parse, in which case nothing is dialed. */
  function AuthMethods(password: string, privateKey: bytes, w: World): (r: Option<seq<AuthMethod>>)
    ensures r.None? <==> |privateKey| > 0 && w.failing == Some(ParseKey)
    ensures r.Some? ==> |r.value| <= 2
    ensures r.Some? ==> (PasswordAuth(password) in r.value <==> password != "")
    ensures r.Some? ==> (PublicKeyAuth(privateKey) in r.value <==> |privateKey| > 0)
    ensures r.Some? ==> forall m :: m in r.value ==> m == PasswordAuth(password) || m == PublicKeyAuth(privateKey)
    ensures r.Some? && |r.value| == 2 ==> r.value[0].PasswordAuth? && r.value[1].PublicKeyAuth?
  {
    var byPassword := if password != "" then [PasswordAuth(password)] else [];
    if |privateKey| > 0 then
      if w.failing == Some(ParseKey) then None
      else Some(byPassword + [PublicKeyAuth(privateKey)])
    else Some(byPassword)
  }

  /** What ssh.Dial is called with: the address and the client configuration.
      The host key callback is always ssh.InsecureIgnoreHostKey. */
  datatype DialRequest = DialRequest(address: string, user: string, auth: seq<AuthMethod>)

  /** The steps of connecting: the key is parsed only when key bytes are given. */
  function ConnectSteps(privateKey: bytes): (steps: seq<Step>)
    ensures ParseKey in steps <==> |privateKey| > 0
    ensures |steps| > 0 && steps[|steps| - 1] == Dial
  {
    if |privateKey| > 0 then [ParseKey, Dial] else [Dial]
  }

  /** A key that does not parse ends the operation before anything is
      dialed, whatever steps would have followed. */
  lemma KeyRejectedBeforeDial(host: string, user: string, password: string, privateKey: bytes, w: World, after: seq<Step>)
    requires |privateKey| > 0 && w.failing == Some(ParseKey)
    ensures Attempted(ConnectSteps(privateKey) + after, w) == [ParseKey]
    ensures DialRequestFor(host, user, password, privateKey, w).None?
  {
    assert (ConnectSteps(privateKey) + after)[0] == ParseKey;
  }

  /** Client configuration, default port, then ssh.Dial: the request is made
      only when the key parses, and the connection is up only when the dial
      succeeds too. */
  function DialRequestFor(host: string, user: string, password: string, privateKey: bytes, w: World): (r: Option<DialRequest>)
    ensures r.Some? <==> Dial in Attempted(ConnectSteps(privateKey), w)
    ensures r.Some? ==> r.value.address == NormalizeHost(host) && r.value.user == user
    ensures r.Some? ==> Some(r.value.auth) == AuthMethods(password, privateKey, w)
  {
    match AuthMethods(password, privateKey, w)
    case None => None
    case Some(auth) => Some(DialRequest(NormalizeHost(host), user, auth))
  }

  // ---------------------------------------------------------------- shell session

  /** The pseudo-terminal request: terminal type, height (rows), width (cols). */
  datatype PtyRequest = PtyRequest(term: string, rows: int, cols: int, echo: int, inputSpeed: int, outputSpeed: int)

  const InitialPty: PtyRequest := PtyRequest("xterm-256color", 40, 80, 1, 14400, 14400)

  const SessionSteps: seq<Step> := [NewSession, RequestPty, StdinPipe, StdoutPipe, StderrPipe, Shell]

  /** How handleSSHConnection gets as far as a running shell: the text frame it
      sends when it gives up (none for a failed pipe, which is only logged),
      the library steps it attempted, the dial and pseudo-terminal requests it
      made, and whether the shell was started. */
  datatype SessionStart = SessionStart(errorFrame: Option<string>, attempted: seq<Step>, dial: Option<DialRequest>, pty: Option<PtyRequest>, started: bool)

  /** The text frame sent when `step` fails with `cause`: one for each step
      before the pipes and for the shell, each starting "Error: " and ending
      with the cause and a line break. */
  function ErrorFrame(step: Step, cause: string): (frame: Option<string>)
    ensures frame.Some? <==> step.ParseKey? || step.Dial? || step.NewSession? || step.RequestPty? || step.Shell?
    ensures frame.Some? ==> |frame.value| >= |cause| + 9 && frame.value[..7] == "Error: "
    ensures frame.Some? ==> frame.value[|frame.value| - |cause| - 2..] == cause + "\r\n"
    ensures step.ParseKey? ==> frame == Some(Frame("Failed to parse private key", cause))
    ensures step.Dial? ==> frame == Some(Frame("Failed to connect", cause))
    ensures step.NewSession? ==> frame == Some(Frame("Failed to create session", cause))
    ensures step.RequestPty? ==> frame == Some(Frame("Failed to request PTY", cause))
    ensures step.Shell? ==> frame == Some(Frame("Failed to start shell", cause))
  {
    match step
    case ParseKey => Some(Frame("Failed to parse private key", cause))
    case Dial => Some(Frame("Failed to connect", cause))
    case NewSession => Some(Frame("Failed to create session", cause))
    case RequestPty => Some(Frame("Failed to request PTY", cause))
    case Shell => Some(Frame("Failed to start shell", cause))
    case _ => None
  }

  /** The frame "Error: <what>: <cause>\r\n". */
  function Frame(what: string, cause: string): (frame: string)
    ensures |frame| >= |cause| + 9 && frame[..7] == "Error: "
    ensures frame[|frame| - |cause| - 2..] == cause + "\r\n"
  {
    "Error: " + what + ": " + cause + "\r\n"
  }

  function StartSession(host: string, user: string, password: string, privateKey: bytes, w: World): (s: SessionStart)
    ensures s.attempted == Attempted(ConnectSteps(privateKey) + SessionSteps, w)
    ensures s.started <==> Failure(ConnectSteps(privateKey) + SessionSteps, w).None?
    ensures s.started ==> s.errorFrame.None? && s.dial.Some?
    ensures s.dial.Some? ==> s.dial.value.address == NormalizeHost(host) && s.dial.value.user == user
    ensures s.dial == DialRequestFor(host, user, password, privateKey, w)
    ensures s.errorFrame.Some? ==> !s.started
    ensures !s.started ==> s.errorFrame == ErrorFrame(w.failing.value, w.cause)
    ensures s.pty.Some? <==> RequestPty in s.attempted
    ensures s.pty.Some? ==> s.pty.value == InitialPty
    ensures s.started ==> s.pty == Some(InitialPty)
  {
    var connect := ConnectSteps(privateKey);
    var all := connect + SessionSteps;
    var attempted := Attempted(all, w);
    var dial := DialRequestFor(host, user, password, privateKey, w);
    var pty := if RequestPty in attempted then Some(InitialPty) else None;
    match Failure(all, w)
    case None => SessionStart(None, attempted, dial, pty, true)
    case Some(step) => SessionStart(ErrorFrame(step, w.cause), attempted, dial, pty, false)
  }
}

=== FILE: download.dfy ===
/** File download: the HTTP handler's checks (main.go) and the streaming
    download over a command channel (ssh.go), with the prefix allow-list that
    both of them apply. */
module Download {
  import opened Text
  import opened Remote
  import opened Connection
  import Base64

  // ---------------------------------------------------------------- allow-list

  /** The only directories files may be downloaded from. */
  const AllowedPrefixes: seq<string> := ["/home/", "/opt/", "/tmp/"]

  /** The allow-list as downloadFileViaSSH writes it: a length guard, then the
      leading slice of the path compared with the prefix. */
  function SliceAllowed(path: string, prefixes: seq<string>): (r: bool)
    ensures r <==> exists i :: 0 <= i < |prefixes| && |path| >= |prefixes[i]| && path[..|prefixes[i]|] == prefixes[i]
    decreases |prefixes|
  {
    if |prefixes| == 0 then false
    else if |path| >= |prefixes[0]| && path[..|prefixes[0]|] == prefixes[0] then true
    else
      var r := SliceAllowed(path, prefixes[1..]);
      assert forall i :: 1 <= i < |prefixes| ==> prefixes[i] == prefixes[1..][i - 1];
      r
  }

  /** The allow-list as downloadHandler writes it: strings.HasPrefix. */
  function HasPrefixAllowed(path: string, prefixes: seq<string>): (r: bool)
    ensures r <==> exists i :: 0 <= i < |prefixes| && prefixes[i] <= path
    decreases |prefixes|
  {
    if |prefixes| == 0 then false
    else if prefixes[0] <= path then true
    else
      var r := HasPrefixAllowed(path, prefixes[1..]);
      assert forall i :: 1 <= i < |prefixes| ==> prefixes[i] == prefixes[1..][i - 1];
      r
  }

  /** The two copies of the allow-list accept exactly the same paths, for any
      list of prefixes. */
  lemma {:induction false} AllowListsAgree(path: string, prefixes: seq<string>)
    ensures SliceAllowed(path, prefixes) == HasPrefixAllowed(path, prefixes)
    decreases |prefixes|
  {
    if |prefixes| > 0 {
      var p := prefixes[0];
      assert (|path| >= |p| && path[..|p|] == p) <==> p <= path;
      AllowListsAgree(path, prefixes[1..]);
    }
  }

  /** A path may be downloaded exactly when it starts with "/home/", "/opt/" or
      "/tmp/"; the prefixes are plain text, so "/tmp" itself is refused and a
      "/tmp/../" path is not. */
  lemma AllowedExactly(path: string)
    ensures HasPrefixAllowed(path, AllowedPrefixes) <==> "/home/" <= path || "/opt/" <= path || "/tmp/" <= path
    ensures !HasPrefixAllowed("/etc/passwd", AllowedPrefixes)
    ensures HasPrefixAllowed("/tmp/a.txt", AllowedPrefixes)
    ensures !HasPrefixAllowed("/tmp", AllowedPrefixes)
    ensures HasPrefixAllowed("/tmp/../etc/passwd", AllowedPrefixes)
  {
    assert "/tmp/" <= "/tmp/a.txt";
    assert "/tmp/" <= "/tmp/../etc/passwd";
    assert "/etc/passwd"[1] == 'e';
    assert "/home/"[1] == 'h' && "/opt/"[1] == 'o' && "/tmp/"[1] == 't';
  }

  // ---------------------------------------------------------------- downloadFileViaSSH

  const AccessDenied: string := "access denied: downloads are only allowed from /home, /opt, and /tmp directories"

  const DownloadSteps: seq<Step> := [NewSession, StdoutPipe, StderrPipe, Start, Copy, Wait]

  /** The remote command that writes the file to standard output. */
  function ReadCommand(path: string): (command: string)
    ensures |command| == |path| + 6
    ensures command[..5] == "cat '" && command[5..|command| - 1] == path && command[|command| - 1] == '\''
  {
    "cat '" + path + "'"
  }

  /** The error downloadFileViaSSH returns when `step` fails. */
  function DownloadError(step: Step, w: World): (text: string)
    ensures |text| > 0
    ensures step in {ParseKey, Dial, NewSession, StdoutPipe, StderrPipe, Start, Copy} ==> EndsWith(text, ": " + w.cause)
    ensures step.Wait? ==> EndsWith(text, ": " + (w.cause + " - " + w.stderr))
  {
    match step
    case ParseKey => Report("failed to parse private key", w.cause)
    case Dial => Report("failed to connect to SSH server", w.cause)
    case NewSession => Report("failed to create download session", w.cause)
    case StdoutPipe => Report("failed to get stdout pipe", w.cause)
    case StderrPipe => Report("failed to get stderr pipe", w.cause)
    case Start => Report("failed to start download command", w.cause)
    case Copy => Report("failed to stream file data", w.cause)
    case _ => Report("failed to download file", w.cause + " - " + w.stderr)
  }

  /** One run of downloadFileViaSSH: its error, the library steps attempted,
      the dial request, the command started and the bytes streamed into the
      response. */
  datatype DownloadRun = DownloadRun(
    error: Option<string>, attempted: seq<Step>, dial: Option<DialRequest>, command: Option<string>, streamed: bytes)

  function DownloadViaSsh(path: string, host: string, user: string, password: string, privateKey: bytes, w: World): (run: DownloadRun)
    ensures !SliceAllowed(path, AllowedPrefixes) ==> run == DownloadRun(Some(AccessDenied), [], None, None, [])
    ensures SliceAllowed(path, AllowedPrefixes) ==> run.attempted == Attempted(ConnectSteps(privateKey) + DownloadSteps, w)
    ensures run.error.None? <==> SliceAllowed(path, AllowedPrefixes) && Failure(ConnectSteps(privateKey) + DownloadSteps, w).None?
    ensures run.command.Some? <==> Start in run.attempted
    ensures run.command.Some? ==> run.command.value == ReadCommand(path)
    ensures run.dial.Some? ==> run.dial.value.address == NormalizeHost(host)
    ensures run.error.None? ==> run.streamed == w.stdout
    ensures SliceAllowed(path, AllowedPrefixes) ==> run.dial == DialRequestFor(host, user, password, privateKey, w)
    ensures SliceAllowed(path, AllowedPrefixes) ==> run.streamed == (if Copy in run.attempted then w.stdout else [])
    ensures SliceAllowed(path, AllowedPrefixes) && Failure(ConnectSteps(privateKey) + DownloadSteps, w).Some? ==>
      run.error == Some(DownloadError(w.failing.value, w))
  {
    if !SliceAllowed(path, AllowedPrefixes) then DownloadRun(Some(AccessDenied), [], None, None, [])
    else
      var steps := ConnectSteps(privateKey) + DownloadSteps;
      var attempted := Attempted(steps, w);
      var dial := DialRequestFor(host, user, password, privateKey, w);
      var command := if Start in attempted then Some(ReadCommand(path)) else None;
      var streamed := if Copy in attempted then w.stdout else [];
      match Failure(steps, w)
      case None => DownloadRun(None, attempted, dial, command, streamed)
      case Some(step) => DownloadRun(Some(DownloadError(step, w)), attempted, dial, command, streamed)
  }

  // ---------------------------------------------------------------- downloadHandler

  /** The query parameters of a download request ("" when absent). */
  datatype DownloadQuery = DownloadQuery(host: string, user: string, password: string, privateKey: string, path: string)

  /** What the client receives, and the library steps taken on its behalf. */
  datatype HttpReply = HttpReply(status: int, body: string, attempted: seq<Step>)

  /** http.Error: the message and a line feed, with the status code unless the
      response has already been committed by earlier body bytes. */
  function HttpError(streamed: string, message: string, status: int): (r: HttpReply)
    ensures |streamed| > 0 ==> r.status == 200
    ensures |streamed| == 0 ==> r.status == status
    ensures |r.body| == |streamed| + |message| + 1
    ensures r.body[..|streamed|] == streamed && r.body[|streamed|..] == message + "\n"
    ensures r.attempted == []
  {
    HttpReply(if |streamed| > 0 then 200 else status, streamed + message + "\n", [])
  }

  const MissingParameters: string := "Missing required parameters"
  const Forbidden: string := "Access denied: Downloads are only allowed from /home, /opt, and /tmp directories"
  const InvalidKeyEncoding: string := "Invalid private key encoding"

  /** The key bytes carried by the query, and whether they decoded. */
  function DownloadKey(q: DownloadQuery): (k: Base64.Decoded)
    ensures q.privateKey == "" ==> k == Base64.Decoded([], true)
    ensures k.ok ==> |Base64.StripNewlines(q.privateKey)| % 4 == 0
  {
    if q.privateKey != "" then Base64.DecodeString(q.privateKey) else Base64.Decoded([], true)
  }

  /** A key sent as the standard encoding of some bytes arrives as exactly
      those bytes, the empty key included. */
  lemma DownloadKeyOfEncoded(q: DownloadQuery, key: bytes)
    requires q.privateKey == Base64.Encode(key)
    ensures DownloadKey(q) == Base64.Decoded(key, true)
  {
    Base64.DecodeEncode(key);
  }

  /** The steps a download runs for `q` once its parameters are accepted. */
  function RequestSteps(q: DownloadQuery): seq<Step> {
    ConnectSteps(DownloadKey(q).data) + DownloadSteps
  }

  /** downloadHandler: parameters, then the allow-list, then the key are
      checked before any connection is made; a failure after bytes have been
      streamed still carries status 200. */
  function DownloadHandler(q: DownloadQuery, w: World): (r: HttpReply)
    ensures q.host == "" || q.user == "" || q.path == "" ==> r == HttpReply(400, MissingParameters + "\n", [])
    ensures r.status == 403 <==> q.host != "" && q.user != "" && q.path != "" && !HasPrefixAllowed(q.path, AllowedPrefixes)
    ensures r.status == 403 ==> r == HttpError("", Forbidden, 403)
    ensures r.attempted != [] ==> HasPrefixAllowed(q.path, AllowedPrefixes) && Base64.DecodeString(q.privateKey).ok
    ensures r.status == 500 ==> r.attempted != [] && w.failing.Some?
    ensures q.host != "" && q.user != "" && q.path != "" && HasPrefixAllowed(q.path, AllowedPrefixes) && !DownloadKey(q).ok ==>
      r == HttpReply(400, InvalidKeyEncoding + "\n", [])
    ensures q.host != "" && q.user != "" && q.path != "" && HasPrefixAllowed(q.path, AllowedPrefixes) && DownloadKey(q).ok ==>
      r.attempted == Attempted(RequestSteps(q), w)
    ensures && q.host != "" && q.user != "" && q.path != "" && HasPrefixAllowed(q.path, AllowedPrefixes) && DownloadKey(q).ok
            && Failure(RequestSteps(q), w).None?
            ==> r == HttpReply(200, w.stdout, RequestSteps(q))
    ensures && q.host != "" && q.user != "" && q.path != "" && HasPrefixAllowed(q.path, AllowedPrefixes) && DownloadKey(q).ok
            && Failure(RequestSteps(q), w).Some?
            ==> var attempted := Attempted(RequestSteps(q), w);
                var streamed := if Copy in attempted then w.stdout else [];
                r == HttpError(streamed, "Download failed: " + DownloadError(w.failing.value, w), 500).(attempted := attempted)
  {
    if q.host == "" || q.user == "" || q.path == "" then
      HttpError("", MissingParameters, 400)
    else if !HasPrefixAllowed(q.path, AllowedPrefixes) then
      HttpError("", Forbidden, 403)
    else
      var key := DownloadKey(q);
      if !key.ok then HttpError("", InvalidKeyEncoding, 400)
      else
        AllowListsAgree(q.path, AllowedPrefixes);
        var run := DownloadViaSsh(q.path, q.host, q.user, q.password, key.data, w);
        match run.error
        case None => HttpReply(200, run.streamed, run.attempted)
        case Some(e) =>
          HttpError(run.streamed, "Download failed: " + e, 500).(attempted := run.attempted)
  }
}

=== FILE: query.dfy ===
/** The `application/x-www-form-urlencoded` query format as Go's net/url reads
    it (url.ParseQuery, url.QueryUnescape, Values.Get), and the escaping that
    Python's urllib.parse.quote_plus (equally Go's url.QueryEscape) applies. */
module Query {
  import opened Text

  // ---------------------------------------------------------------- unescaping

  predicate IsHex(c: char) {
    ('0' <= c <= '9') || ('a' <= c <= 'f') || ('A' <= c <= 'F')
  }

  function HexValue(c: char): (v: int)
    requires IsHex(c)
    ensures 0 <= v < 16
  {
    if '0' <= c <= '9' then c as int - '0' as int
    else if 'a' <= c <= 'f' then c as int - 'a' as int + 10
    else c as int - 'A' as int + 10
  }

  /** url.QueryUnescape: "%XX" is the byte with hex value XX, '+' is a space,
      everything else stands for itself; a '%' without two hex digits after
      it is an error. */
  function Unescape(s: string): (r: Option<string>)
    ensures r.Some? ==> |r.value| <= |s|
    ensures r.None? ==> '%' in s
    decreases |s|
  {
    if |s| == 0 then Some("")
    else if s[0] == '%' then
      if |s| < 3 || !IsHex(s[1]) || !IsHex(s[2]) then None
      else
        var c := (HexValue(s[1]) * 16 + HexValue(s[2])) as char;
        match Unescape(s[3..])
        case None => None
        case Some(t) => Some([c] + t)
    else
      match Unescape(s[1..])
      case None => None
      case Some(t) => Some([if s[0] == '+' then ' ' else s[0]] + t)
  }

  /** `s` with every '+' turned into a space. */
  function PlusToSpace(s: string): (r: string)
    ensures |r| == |s| && '+' !in r
    ensures forall i :: 0 <= i < |s| ==> r[i] == (if s[i] == '+' then ' ' else s[i])
  {
    if |s| == 0 then "" else [if s[0] == '+' then ' ' else s[0]] + PlusToSpace(s[1..])
  }

  /** Text without '%' always unescapes, and only its '+' characters change. */
  lemma {:induction false} UnescapeWithoutPercent(s: string)
    requires '%' !in s
    ensures Unescape(s) == Some(PlusToSpace(s))
    decreases |s|
  {
    if |s| > 0 {
      UnescapeWithoutPercent(s[1..]);
    }
  }

  /** Turning '+' into spaces changes the text exactly when it holds a '+'. */
  lemma PlusToSpaceChanges(s: string)
    ensures PlusToSpace(s) == s <==> '+' !in s
  {
    if '+' in s {
      var i :| 0 <= i < |s| && s[i] == '+';
      assert PlusToSpace(s)[i] == ' ';
    } else {
      assert PlusToSpace(s) == s;
    }
  }

  /** Text with neither '%' nor '+' unescapes to itself. */
  lemma PlainUnescapesToItself(s: string)
    requires '%' !in s && '+' !in s
    ensures Unescape(s) == Some(s)
  {
    UnescapeWithoutPercent(s);
    PlusToSpaceChanges(s);
  }

  // ---------------------------------------------------------------- escaping

  const HexDigits: string := "0123456789ABCDEF"

  /** Characters quote_plus leaves alone. */
  predicate IsUnreserved(c: char) {
    ('A' <= c <= 'Z') || ('a' <= c <= 'z') || ('0' <= c <= '9') || c == '-' || c == '_' || c == '.' || c == '~'
  }

  /** One byte as quote_plus writes it. */
  function EscapeByte(c: byte): (e: bytes)
    ensures '&' !in e && ';' !in e && '=' !in e
    ensures c != ' ' ==> '+' !in e
    ensures c == ' ' ==> e == "+"
  {
    if IsUnreserved(c) then [c]
    else if c == ' ' then "+"
    else ['%', HexDigits[c as int / 16], HexDigits[c as int % 16]]
  }

  /** quote_plus on a byte string: the result is made of unreserved
      characters, '+' and "%XX" escapes only, so it holds none of the
      separators '&', ';' and '='. */
  function Escape(s: bytes): (e: bytes)
    ensures '&' !in e && ';' !in e && '=' !in e
  {
    if |s| == 0 then "" else EscapeByte(s[0]) + Escape(s[1..])
  }

  lemma HexDigitValue(v: int)
    requires 0 <= v < 16
    ensures IsHex(HexDigits[v]) && HexValue(HexDigits[v]) == v
  {
  }

  lemma UnescapeEscapeByte(c: byte, rest: string)
    requires Unescape(rest).Some?
    ensures Unescape(EscapeByte(c) + rest) == Some([c] + Unescape(rest).value)
  {
    if IsUnreserved(c) || c == ' ' {
      var s := EscapeByte(c) + rest;
      assert s[0] == (if c == ' ' then '+' else c) && s[0] != '%';
      assert s[1..] == rest;
    } else {
      UnescapeHexEscape(c, rest);
    }
  }

  /** A "%XX" escape of a byte unescapes to that byte. */
  lemma UnescapeHexEscape(c: byte, rest: string)
    requires Unescape(rest).Some?
    ensures Unescape(['%', HexDigits[c as int / 16], HexDigits[c as int % 16]] + rest) == Some([c] + Unescape(rest).value)
  {
    var hi, lo := c as int / 16, c as int % 16;
    var s := ['%', HexDigits[hi], HexDigits[lo]] + rest;
    HexDigitValue(hi);
    HexDigitValue(lo);
    assert s[0] == '%' && s[1] == HexDigits[hi] && s[2] == HexDigits[lo];
    assert HexValue(s[1]) * 16 + HexValue(s[2]) == c as int;
    assert s[3..] == rest;
  }

  /** Unescaping undoes escaping, for every byte string. */
  lemma {:induction false} UnescapeEscape(s: bytes)
    ensures Unescape(Escape(s)) == Some(s)
    decreases |s|
  {
    if |s| > 0 {
      UnescapeEscape(s[1..]);
      UnescapeEscapeByte(s[0], Escape(s[1..]));
      assert s == [s[0]] + s[1..];
    }
  }

  // ---------------------------------------------------------------- parsing

  datatype Pair = Pair(key: string, value: string)

  /** What url.ParseQuery returns: the decoded key/value pairs in the order
      they were written (url.Values keeps each key's values in that order),
      and whether the error result was nil. */
  datatype Parsed = Parsed(pairs: seq<Pair>, ok: bool)

  /** url.ParseQuery: split on '&'; a piece holding ';' is an error; an empty
      piece is skipped; otherwise the piece splits at its first '=' and both
      halves are unescaped, a piece that fails to unescape being dropped with
      an error.  Parsing goes on after an error. */
  function ParseQuery(q: string): (r: Parsed)
    ensures ';' in q ==> !r.ok
    ensures |r.pairs| <= |q|
    decreases |q|
  {
    if q == "" then Parsed([], true)
    else
      var (piece, rest, _) := Cut(q, '&');
      var tail := ParseQuery(rest);
      if ';' in piece then Parsed(tail.pairs, false)
      else if piece == "" then tail
      else
        var (k, v, _) := Cut(piece, '=');
        match (Unescape(k), Unescape(v))
        case (Some(key), Some(value)) => Parsed([Pair(key, value)] + tail.pairs, tail.ok)
        case _ => Parsed(tail.pairs, false)
  }

  /** `v` is the value of the first pair named `key`, or "" when no pair is. */
  predicate IsFirstValue(pairs: seq<Pair>, key: string, v: string) {
    && ((forall i :: 0 <= i < |pairs| ==> pairs[i].key != key) ==> v == "")
    && (forall i :: 0 <= i < |pairs| && pairs[i].key == key && (forall j :: 0 <= j < i ==> pairs[j].key != key) ==>
         v == pairs[i].value)
  }

  /** Values.Get: the first value given for `key`, or "" when there is none. */
  function Get(pairs: seq<Pair>, key: string): (v: string)
    ensures IsFirstValue(pairs, key, v)
  {
    if |pairs| == 0 then ""
    else if pairs[0].key == key then pairs[0].value
    else
      var v := Get(pairs[1..], key);
      assert forall i :: 1 <= i < |pairs| ==> pairs[i] == pairs[1..][i - 1];
      v
  }

  /** A piece `name=value` whose value needs no unescaping, followed by the
      rest of the query, parses to that pair in front of the rest. */
  lemma ParseField(name: string, value: string, rest: string)
    requires PlainName(name)
    requires '&' !in value && ';' !in value && Unescape(value).Some?
    ensures ParseQuery(name + "=" + value + "&" + rest)
         == Parsed([Pair(name, Unescape(value).value)] + ParseQuery(rest).pairs, ParseQuery(rest).ok)
  {
    var piece := name + "=" + value;
    assert name + "=" + value + "&" + rest == piece + ['&'] + rest;
    CutAtFirst(piece, rest, '&');
    assert piece == name + ['='] + value;
    CutAtFirst(name, value, '=');
    PlainUnescapesToItself(name);
  }

  /** The same for the last piece of a query. */
  lemma ParseLastField(name: string, value: string)
    requires PlainName(name)
    requires '&' !in value && ';' !in value && Unescape(value).Some?
    ensures ParseQuery(name + "=" + value) == Parsed([Pair(name, Unescape(value).value)], true)
  {
    var piece := name + "=" + value;
    assert Cut(piece, '&') == (piece, "", false);
    assert piece == name + ['='] + value;
    CutAtFirst(name, value, '=');
    PlainUnescapesToItself(name);
  }

  /** A name that unescapes to itself and holds no separator. */
  predicate PlainName(name: string) {
    name != "" && '&' !in name && ';' !in name && '=' !in name && '%' !in name && '+' !in name
  }

  /** A field that can be written as `name=value` and read back. */
  predicate Writable(f: Pair) {
    PlainName(f.key) && '&' !in f.value && ';' !in f.value && Unescape(f.value).Some?
  }

  /** The `name=value` pieces of a list of fields. */
  function FieldTexts(fields: seq<Pair>): (texts: seq<string>)
    ensures |texts| == |fields|
    ensures forall i :: 0 <= i < |fields| ==> texts[i] == fields[i].key + "=" + fields[i].value
  {
    if |fields| == 0 then [] else [fields[0].key + "=" + fields[0].value] + FieldTexts(fields[1..])
  }

  /** The fields as the parser gives them back: every value unescaped. */
  function Unescaped(fields: seq<Pair>): (r: seq<Pair>)
    ensures |r| == |fields|
    ensures forall i :: 0 <= i < |fields| && Unescape(fields[i].value).Some? ==>
      r[i] == Pair(fields[i].key, Unescape(fields[i].value).value)
  {
    if |fields| == 0 then []
    else
      var f := fields[0];
      [Pair(f.key, match Unescape(f.value) case Some(v) => v case None => f.value)] + Unescaped(fields[1..])
  }

  /** Writing fields as `name=value` pieces joined by '&' and parsing the
      result gives back every field, in order, with its value unescaped. */
  lemma {:induction false} ParseJoined(fields: seq<Pair>)
    requires |fields| >= 1
    requires forall i :: 0 <= i < |fields| ==> Writable(fields[i])
    ensures ParseQuery(Join(FieldTexts(fields), '&')) == Parsed(Unescaped(fields), true)
    decreases |fields|
  {
    var f := fields[0];
    assert Writable(f);
    var texts := FieldTexts(fields);
    if |fields| == 1 {
      ParseLastField(f.key, f.value);
    } else {
      assert Writable(fields[1]);
      ParseJoined(fields[1..]);
      assert texts[1..] == FieldTexts(fields[1..]);
      var rest := Join(FieldTexts(fields[1..]), '&');
      assert Join(texts, '&') == f.key + "=" + f.value + "&" + rest;
      ParseField(f.key, f.value, rest);
    }
  }
}

=== FILE: remote.dfy ===
/** The SSH library and the remote host, seen from the gateway.

    Every call the gateway makes into the SSH library (parsing a key, dialing,
    opening a session, getting a pipe, starting a command, copying, waiting) is
    a `Step`.  A `World` says which step, if any, reports an error, the text of
    that error, and what a remote command writes to its standard output and
    standard error.  An operation over a list of steps stops at the first one
    that fails, so each step is attempted only when every step before it
    succeeded.
 */
module Remote {
  import opened Text

  datatype Step =
    | ParseKey      // ssh.ParsePrivateKey
    | Dial          // ssh.Dial
    | NewSession    // Client.NewSession
    | RequestPty    // Session.RequestPty
    | StdinPipe     // Session.StdinPipe
    | StdoutPipe    // Session.StdoutPipe
    | StderrPipe    // Session.StderrPipe
    | Shell         // Session.Shell
    | Start         // Session.Start
    | Write         // writing the upload payload into the command's input
    | Copy          // io.Copy between a command and a local stream
    | Wait          // Session.Wait: the remote command exited non-zero

  datatype World = World(
    failing: Option<Step>,  // the step that reports an error, if any
    cause: string,          // the %v text of that error
    stderr: string,         // what the remote command wrote to standard error
    stdout: bytes)          // what was copied from the remote command's standard output
                            // (when the copy fails, what was copied before the error)

  /** The step of `steps` that fails in `w`, if any. */
  function Failure(steps: seq<Step>, w: World): (f: Option<Step>)
    ensures f.Some? <==> w.failing.Some? && w.failing.value in steps
    ensures f.Some? ==> f == w.failing
  {
    if w.failing.Some? && w.failing.value in steps then w.failing else None
  }

  /** The steps actually attempted: all of them, or those up to and including
      the failing one. */
  function Attempted(steps: seq<Step>, w: World): (done: seq<Step>)
    ensures done <= steps
    ensures Failure(steps, w).None? ==> done == steps
    ensures Failure(steps, w).Some? ==>
      |done| > 0 && done[|done| - 1] == w.failing.value && w.failing.value !in done[..|done| - 1]
  {
    if |steps| == 0 then []
    else if Some(steps[0]) == w.failing then [steps[0]]
    else [steps[0]] + Attempted(steps[1..], w)
  }
}

=== FILE: shell.dfy ===
/** Single-quoting a word for a POSIX shell, and how the shell reads such a
    word back. */
module Shell {
  import opened Text

  /** `a` in front of the word read from the rest, if there is one. */
  function Prepend(a: string, rest: Option<string>): Option<string> {
    if rest.None? then None else Some(a + rest.value)
  }

  /** How a POSIX shell reads the text as a single word: a single-quoted
      segment stands for the characters up to the next quote, a backslash for
      the character after it, and any other character for itself.  None when
      the text is not exactly one word: a quote left open, a backslash at the
      end, or a blank.  Other shell metacharacters are not modelled. */
  function Word(t: string): Option<string>
    decreases |t|
  {
    if t == "" then Some("")
    else if t[0] == '\'' then
      var (inside, rest, closed) := Cut(t[1..], '\'');
      if closed then Prepend(inside, Word(rest)) else None
    else if t[0] == '\\' then
      if |t| < 2 then None else Prepend([t[1]], Word(t[2..]))
    else if t[0] == ' ' then None
    else Prepend([t[0]], Word(t[1..]))
  }

  /** A quoted segment stands for what is between its quotes. */
  lemma QuotedSegment(inside: string, rest: string)
    requires '\'' !in inside
    ensures Word("'" + inside + "'" + rest) == Prepend(inside, Word(rest))
  {
    var t := "'" + inside + "'" + rest;
    assert t[1..] == inside + "'" + rest;
    CutAtFirst(inside, rest, '\'');
  }

  /** A backslash stands for the character after it. */
  lemma EscapedChar(c: char, rest: string)
    ensures Word(['\\', c] + rest) == Prepend([c], Word(rest))
  {
    assert (['\\', c] + rest)[2..] == rest;
  }

  /** Any other character stands for itself. */
  lemma PlainChar(c: char, rest: string)
    requires c != '\'' && c != '\\' && c != ' '
    ensures Word([c] + rest) == Prepend([c], Word(rest))
  {
    assert ([c] + rest)[1..] == rest;
  }

  /** A quote that is never closed is not a word. */
  lemma LoneQuote()
    ensures Word("'") == None
  {
    assert "'"[1..] == "";
  }

  /** A quoted segment followed by a plain character and a lone quote is not
      one word: the last quote is never closed. */
  lemma UnclosedQuote(inside: string, c: char)
    requires '\'' !in inside && c != '\'' && c != '\\' && c != ' '
    ensures Word("'" + inside + "'" + [c] + "'") == None
  {
    assert "'" + inside + "'" + [c] + "'" == "'" + inside + "'" + ([c] + "'");
    QuotedSegment(inside, [c] + "'");
    PlainChar(c, "'");
    LoneQuote();
  }

  /** The pieces between quotes, each put between single quotes, with an
      escaped quote between neighbours. */
  function Quoted(parts: seq<string>): string
    requires |parts| > 0
    decreases |parts|
  {
    "'" + parts[0] + "'" + (if |parts| == 1 then "" else ['\\', '\''] + Quoted(parts[1..]))
  }

  /** The shell reads quoted pieces back as the pieces joined by quotes. */
  lemma {:induction false} WordOfQuoted(parts: seq<string>)
    requires |parts| > 0 && forall i :: 0 <= i < |parts| ==> '\'' !in parts[i]
    ensures Word(Quoted(parts)) == Some(Join(parts, '\''))
    decreases |parts|
  {
    if |parts| == 1 {
      QuotedLast(parts);
    } else {
      WordOfQuoted(parts[1..]);
      SegmentThenQuote(parts[0], Quoted(parts[1..]), Join(parts[1..], '\''));
    }
  }

  /** The last piece. */
  lemma QuotedLast(parts: seq<string>)
    requires |parts| == 1 && '\'' !in parts[0]
    ensures Word(Quoted(parts)) == Some(Join(parts, '\''))
  {
    assert Quoted(parts) == "'" + parts[0] + "'" + "";
    QuotedSegment(parts[0], "");
    assert parts[0] + "" == parts[0];
  }

  /** One quoted piece and an escaped quote in front of a word. */
  lemma SegmentThenQuote(inside: string, rest: string, w: string)
    requires '\'' !in inside && Word(rest) == Some(w)
    ensures Word("'" + inside + "'" + (['\\', '\''] + rest)) == Some(inside + ['\''] + w)
  {
    EscapedChar('\'', rest);
    QuotedSegment(inside, ['\\', '\''] + rest);
    assert inside + (['\''] + w) == inside + ['\''] + w;
  }

  /** `s` as one single-quoted word, every quote inside it written as the
      four characters quote, backslash, quote, quote. */
  function Quote(s: string): (word: string)
    ensures Word(word) == Some(s)
  {
    var parts := Split(s, '\'');
    WordOfQuoted(parts);
    Quoted(parts)
  }
}

=== FILE: text.dfy ===
/** Byte strings and the small string operations the gateway uses on them.

    Byte data (a Go `[]byte`, a Python `bytes` value, base64 text) is a
    sequence of `byte`s, each the `char` with that code, so it is also a Dafny
    `string`.  A Go `string` that arrives from outside may hold any character:
    it is a Dafny `string` measured in characters, not in UTF-8 bytes, and
    `string(b)` / `[]byte(s)` are taken as the identity, which they are for
    text below 128.
 */
module Text {

  /** One byte of a byte slice or byte string. */
  type byte = c: char | c as int < 256

  type bytes = seq<byte>

  datatype Option<+T> = None | Some(value: T)

  /** `s` ends with `suffix` (strings.HasSuffix). */
  predicate EndsWith(s: string, suffix: string) {
    |suffix| <= |s| && s[|s| - |suffix|..] == suffix
  }

  /** An error message in Go's "<what>: <cause>" form: it starts with what
      failed and ends with the error that made it fail. */
  function Report(what: string, cause: string): (text: string)
    ensures what <= text && EndsWith(text, ": " + cause)
  {
    what + ": " + cause
  }

  /** Index of the first occurrence of `c` in `s`, or -1 when there is none. */
  function IndexOf(s: string, c: char): (i: int)
    ensures -1 <= i < |s|
    ensures i == -1 <==> c !in s
    ensures 0 <= i ==> s[i] == c && c !in s[..i]
  {
    if |s| == 0 then -1
    else if s[0] == c then 0
    else
      var j := IndexOf(s[1..], c);
      if j == -1 then -1
      else
        assert s[..j+1] == [s[0]] + s[1..][..j];
        j + 1
  }

  /** strings.Cut with a one-character separator: the text before the first
      separator, the text after it, and whether one was found. */
  function Cut(s: string, sep: char): (r: (string, string, bool))
    ensures r.2 <==> sep in s
    ensures r.2 ==> s == r.0 + [sep] + r.1 && sep !in r.0
    ensures !r.2 ==> r.0 == s && r.1 == ""
    ensures |r.1| < |s| || s == ""
  {
    var i := IndexOf(s, sep);
    if i < 0 then (s, "", false)
    else
      assert s == s[..i] + [sep] + s[i+1..];
      (s[..i], s[i+1..], true)
  }

  /** The pieces of `s` between the separators, as Go's strings.Split does for
      a one-character separator: never empty, and "" splits into [""]. */
  function Split(s: string, sep: char): (parts: seq<string>)
    ensures |parts| >= 1
    ensures forall i :: 0 <= i < |parts| ==> sep !in parts[i]
    ensures Join(parts, sep) == s
    decreases |s|
  {
    var (before, after, found) := Cut(s, sep);
    if found then [before] + Split(after, sep) else [s]
  }

  /** strings.Join with a one-character separator. */
  function Join(parts: seq<string>, sep: char): string
    decreases |parts|
  {
    if |parts| == 0 then ""
    else if |parts| == 1 then parts[0]
    else parts[0] + [sep] + Join(parts[1..], sep)
  }

  /** Splitting undoes joining when no piece holds the separator. */
  lemma {:induction false} SplitJoin(parts: seq<string>, sep: char)
    requires |parts| >= 1
    requires forall i :: 0 <= i < |parts| ==> sep !in parts[i]
    ensures Split(Join(parts, sep), sep) == parts
    decreases |parts|
  {
    if |parts| == 1 {
      assert Cut(parts[0], sep).2 == false;
    } else {
      var rest := Join(parts[1..], sep);
      CutAtFirst(parts[0], rest, sep);
      SplitJoin(parts[1..], sep);
      assert parts == [parts[0]] + parts[1..];
    }
  }

  /** Cutting `a + [sep] + b` stops at the separator written between them when
      `a` holds none. */
  lemma CutAtFirst(a: string, b: string, sep: char)
    requires sep !in a
    ensures Cut(a + [sep] + b, sep) == (a, b, true)
  {
    var s := a + [sep] + b;
    var i := IndexOf(s, sep);
    assert s[|a|] == sep;
    assert forall k :: 0 <= k < |a| ==> s[k] == a[k] && a[k] != sep;
    assert forall k :: 0 <= k < i ==> s[..i][k] == s[k] && s[k] != sep;
    assert i == |a|;
    assert s[..|a|] == a;
    assert s[|a|+1..] == b;
  }
}

=== FILE: upload.dfy ===
/** File upload into the staging directory, both from a websocket control
    message (handleFileUpload) and from an HTTP form (uploadFileViaSSH). */
module Upload {
  import opened Text
  import opened Remote
  import opened Connection
  import Base64
  import Shell

  /** Where an uploaded file is written: the file name is used verbatim, with
      no escaping and no removal of "../" segments. */
  function StagingPath(filename: string): (path: string)
    ensures "/tmp/" <= path && path[5..] == filename
  {
    "/tmp/" + filename
  }

  /** The remote command that copies its standard input into `path`, which
      it puts between single quotes without escaping any quote inside it. */
  function WriteCommand(path: string): (command: string)
    ensures |command| == |path| + 8
    ensures command[..7] == "cat > '" && command[7..|command| - 1] == path && command[|command| - 1] == '\''
  {
    "cat > '" + path + "'"
  }

  /** The staging path keeps "../" segments. */
  lemma StagingPathKeepsTraversal()
    ensures StagingPath("../etc/cron.d/job") == "/tmp/../etc/cron.d/job"
  {
  }

  /** A single quote in the file name closes the quoted word early: the
      command then holds a quote strictly between the opening and the closing
      one, so the shell does not read the path as one quoted word. */
  lemma QuoteInFilenameEndsQuoting(filename: string)
    requires '\'' in filename
    ensures exists i :: 7 <= i < |WriteCommand(StagingPath(filename))| - 1 && WriteCommand(StagingPath(filename))[i] == '\''
  {
    var command := WriteCommand(StagingPath(filename));
    var k :| 0 <= k < |filename| && filename[k] == '\'';
    assert command[12 + k] == StagingPath(filename)[5 + k] == filename[k];
  }

  /** As written, a quote in the file name leaves the shell with a broken
      word: "x'y" is staged at "/tmp/x'y", and the argument "'/tmp/x'y'" ends
      in a quote that is never closed.  The same holds for every name of
      that shape. */
  lemma QuoteInFilenameBreaksWord(name: string, c: char)
    requires '\'' !in name && c != '\'' && c != '\\' && c != ' '
    ensures Shell.Word(WriteCommand(StagingPath(name + "'" + [c]))[6..]) == None
  {
    var inside := "/tmp/" + name;
    var path := StagingPath(name + "'" + [c]);
    assert path == inside + "'" + [c];
    assert '\'' !in inside by {
      assert forall k :: 0 <= k < |inside| ==> inside[k] in "/tmp/" || inside[k] in name;
    }
    assert WriteCommand(path)[6..] == "'" + inside + "'" + [c] + "'";
    Shell.UnclosedQuote(inside, c);
  }

  /** The write command with its path quoted so that the shell reads exactly
      the path as one word, whatever characters it holds. */
  function QuotedWriteCommand(path: string): (command: string)
    ensures |command| >= 6 && command[..6] == "cat > " && Shell.Word(command[6..]) == Some(path)
  {
    var word := Shell.Quote(path);
    var command := "cat > " + word;
    assert command[6..] == word;
    command
  }

  // ---------------------------------------------------------------- over the websocket

  /** The upload acknowledgement sent back on the websocket. */
  datatype UploadResponse = UploadResponse(responseType: string, success: bool, path: string, error: string)

  const UploadSteps: seq<Step> := [NewSession, StdinPipe, StderrPipe, Start, Write, Wait]

  /** The text of Go's base64.CorruptInputError; the byte offset it also
      names is not modelled. */
  const CorruptInput: string := "illegal base64 data at input byte"

  function UploadErrorText(step: Step, w: World): (text: string)
    ensures |text| > 0
    ensures step in {NewSession, StdinPipe, StderrPipe, Start, Write} ==> EndsWith(text, ": " + w.cause)
    ensures step.Wait? ==> EndsWith(text, ": " + (w.cause + " - " + w.stderr))
  {
    match step
    case NewSession => Report("Failed to create upload session", w.cause)
    case StdinPipe => Report("Failed to get stdin pipe", w.cause)
    case StderrPipe => Report("Failed to get stderr pipe", w.cause)
    case Start => Report("Failed to start upload command", w.cause)
    case Write => Report("Failed to write file data", w.cause)
    case _ => Report("Failed to upload file", w.cause + " - " + w.stderr)
  }

  /** One run of handleFileUpload: the response sent, the library steps
      attempted, the command started and the bytes written to its input. */
  datatype UploadRun = UploadRun(response: UploadResponse, attempted: seq<Step>, command: Option<string>, written: Option<bytes>)

  function Failed(error: string): UploadResponse {
    UploadResponse("upload_response", false, "", error)
  }

  /** handleFileUpload: decode the base64 payload, then run `cat > '<path>'`
      on a new session with the payload as its input. */
  function HandleFileUpload(filename: string, data: string, w: World): (run: UploadRun)
    ensures run.response.responseType == "upload_response"
    ensures run.response.success ==> run.response.path == StagingPath(filename) && run.response.error == ""
    ensures !run.response.success ==> run.response.path == "" && run.response.error != ""
    ensures !Base64.DecodeString(data).ok ==> !run.response.success && run.attempted == [] && run.command.None?
    ensures run.response.success <==> Base64.DecodeString(data).ok && Failure(UploadSteps, w).None?
    ensures run.command.Some? <==> Start in run.attempted
    ensures run.command.Some? ==> run.command.value == WriteCommand(StagingPath(filename))
    ensures run.written.Some? ==> run.written.value == Base64.DecodeString(data).data
    ensures run.response.success ==> run.written.Some?
  {
    var decoded := Base64.DecodeString(data);
    if !decoded.ok then
      UploadRun(Failed("Failed to decode file data: " + CorruptInput), [], None, None)
    else
      WriteUpload(StagingPath(filename), decoded.data, w)
  }

  /** The part of handleFileUpload after the payload decoded: the session
      that writes `payload` into `path`. */
  function WriteUpload(path: string, payload: bytes, w: World): (run: UploadRun)
    ensures run.response.responseType == "upload_response"
    ensures run.response.success ==> run.response.path == path && run.response.error == ""
    ensures !run.response.success ==> run.response.path == "" && run.response.error != ""
    ensures run.attempted == Attempted(UploadSteps, w)
    ensures run.response.success <==> Failure(UploadSteps, w).None?
    ensures run.command.Some? <==> Start in run.attempted
    ensures run.command.Some? ==> run.command.value == WriteCommand(path)
    ensures run.written.Some? ==> run.written.value == payload
    ensures run.response.success ==> run.written.Some?
  {
    var attempted := Attempted(UploadSteps, w);
    var command := if Start in attempted then Some(WriteCommand(path)) else None;
    var written := if Write in attempted then Some(payload) else None;
    match Failure(UploadSteps, w)
    case None =>
      assert UploadSteps[4] == Write;
      UploadRun(UploadResponse("upload_response", true, path, ""), attempted, command, written)
    case Some(step) => UploadRun(Failed(UploadErrorText(step, w)), attempted, command, written)
  }

  // ---------------------------------------------------------------- over HTTP

  const FormUploadSteps: seq<Step> := [NewSession, StdinPipe, StderrPipe, Start, Copy, Wait]

  function FormUploadErrorText(step: Step, w: World): (text: string)
    ensures |text| > 0
    ensures step in {ParseKey, Dial, NewSession, StdinPipe, StderrPipe, Start, Copy} ==> EndsWith(text, ": " + w.cause)
    ensures step.Wait? ==> EndsWith(text, ": " + (w.cause + " - " + w.stderr))
  {
    match step
    case ParseKey => Report("failed to parse private key", w.cause)
    case Dial => Report("failed to connect to SSH server", w.cause)
    case NewSession => Report("failed to create upload session", w.cause)
    case StdinPipe => Report("failed to get stdin pipe", w.cause)
    case StderrPipe => Report("failed to get stderr pipe", w.cause)
    case Start => Report("failed to start upload command", w.cause)
    case Copy => Report("failed to write file data", w.cause)
    case _ => Report("failed to upload file", w.cause + " - " + w.stderr)
  }

  /** One run of uploadFileViaSSH: the staged path or the error, the library
      steps attempted, the dial request and the command started. */
  datatype FormUploadRun = FormUploadRun(result: Option<string>, error: string, attempted: seq<Step>, dial: Option<DialRequest>, command: Option<string>)

  /** uploadFileViaSSH: connect, then stream the file into `cat > '<path>'`. */
  function UploadViaSsh(filename: string, host: string, user: string, password: string, privateKey: bytes, w: World): (run: FormUploadRun)
    ensures run.attempted == Attempted(ConnectSteps(privateKey) + FormUploadSteps, w)
    ensures run.result.Some? <==> Failure(ConnectSteps(privateKey) + FormUploadSteps, w).None?
    ensures run.result.Some? ==> run.result.value == StagingPath(filename) && run.error == ""
    ensures run.result.None? ==> run.error != ""
    ensures run.dial.Some? ==> run.dial.value.address == NormalizeHost(host) && run.dial.value.user == user
    ensures run.dial == DialRequestFor(host, user, password, privateKey, w)
    ensures run.command.Some? <==> Start in run.attempted
    ensures run.command.Some? ==> run.command.value == WriteCommand(StagingPath(filename))
  {
    var steps := ConnectSteps(privateKey) + FormUploadSteps;
    var attempted := Attempted(steps, w);
    var dial := DialRequestFor(host, user, password, privateKey, w);
    var path := StagingPath(filename);
    var command := if Start in attempted then Some(WriteCommand(path)) else None;
    match Failure(steps, w)
    case None => FormUploadRun(Some(path), "", attempted, dial, command)
    case Some(step) => FormUploadRun(None, FormUploadErrorText(step, w), attempted, dial, command)
  }
}
